=== FILE: README.md ===
# wp-plugin-go core, modelled in Dafny

This project models the pure, sequential parts of the Woodpecker plugin helper library
`wp-plugin-go`:

- the escaped-delimiter string-slice flag value (`StringSlice.Set`, `String`, `ToString`, `Create`,
  `Get`);
- the generic slice helpers `Unique` and `SetDifference`;
- deriving container image tags from a git ref: `stripHeadPrefix`, `stripTagPrefix`, `IsTaggable`,
  `SemverTags`, `SemverTagSuffix`, and their duplicates in the `plugin` package;
- `splitMessage`, which splits a commit message into title and description;
- the template helpers `AddPrefix`, `ToSentence` and `getLastRune`;
- the plugin environment overlay, `Environment.Lookup` and `Environment.Value`;
- the Markdown documentation generator: `prepareMultilineString`, `prepareFlags`, `flagDetails`,
  `prepareArgsWithValues`, `prepareArgsSynopsis`, `prepareUsageText`, `prepareUsage` and
  `prepareCommands`.

Each Go package is one module, except `plugin`, whose core files `plugin/tags.go`,
`plugin/commit.go` and `plugin/environment.go` are the modules `PluginTags`, `Commit` and
`Environment`. Go strings are modelled as `seq<char>`, Go slices as `seq`
and the environment as a `map`.

The supporting modules are:

- `GoStrings` models the pieces of Go's `strings`, `strconv` and `fmt` that the core uses:
  `TrimPrefix`, `Index`, `Split`, `SplitN(…, 2)`, `Join`, `Count`, `TrimSpace`, `TrimRight`,
  `Trim`, `ReplaceAll`, `Repeat`, `%v` of a natural number, `%q`, and `len` as a UTF-8 byte count.
- `StringOrder` models Go's string order and `sort.Strings`.
- `Results` holds the `Option` and `Result` types.

The model passes external behaviour in as parameters:

- The semantic-version parser (Semantic Versioning 2.0.0, via the Masterminds library) is a
  function parameter `Tag.Parser`. It maps the raw version text and the strict flag to a `Version`
  or an error message.
- `unicode.ToUpper` is a function parameter `toUpper`.
- The process environment seen by `os.LookupEnv` is a map parameter `osEnv`.
- Go's map iteration order in `Environment.Value` is an arbitrary choice. The method's ghost
  `order` result records it.
- A pointer-backed Go value is modelled as an immutable record. `StringSlice.destination` is
  `None` for a nil pointer, and `Set` returns the updated record instead of writing through the
  pointer.
- A `cli.Flag` is the record `Flag(isDocFlag, names, takesValue, usage, defaultText, value)`.
  `isDocFlag` says whether the flag implements `DocGenerationFlag`.
- A `cli.Command` is the tree `Command(hidden, names, usage, usageText, flags, subcommands)`.
  `names` holds the name followed by the aliases, and `flags` holds the visible flags.

## Model

| member | source | states |
|---|---|---|
| StringSliceFlag.MergeEscaped | cli/flag_string_slice.go:59-64 | Merging loses exactly one element per piece, the last aside, that ends in the escape string; at least one element remains |
| StringSliceFlag.SplitEscaped | cli/flag_string_slice.go:49-66 | The list stored for `v`: empty for `""`; otherwise between one element and the number of delimiter occurrences plus one |
| StringSliceFlag.MergeStepKeepsInvariant | cli/flag_string_slice.go:59-64 | One loop iteration at index `i` leaves the pieces left of `i` untouched and the pieces from `i` on merged |
| StringSliceFlag.Set | cli/flag_string_slice.go:49-69 | The right-to-left split-and-merge loop stores exactly the merged list, and changes nothing but the destination |
| StringSliceFlag.String | cli/flag_string_slice.go:77-83 | `""` for a nil destination, otherwise the plain delimiter join; for a one-character delimiter that no element contains, splitting the text again gives back the non-empty list |
| StringSliceFlag.Create | cli/flag_string_slice.go:29-37 | The destination holds `v`, and delimiter and escape string are copied from the config |
| StringSliceFlag.ToString | cli/flag_string_slice.go:40-46 | `""` for an empty list; otherwise a quoted string whose unquoting is the delimiter join |
| StringSliceFlag.SetEmptyStoresEmptyList | cli/flag_string_slice.go:50-54 | `Set("")` stores the empty list, not a list holding one empty string |
| StringSliceFlag.MergeWithoutEscapes | cli/flag_string_slice.go:59-64 | With no piece ending in the escape string, the merge pass changes nothing |
| StringSliceFlag.SetWithoutEscapesIsSplit | cli/flag_string_slice.go:56-66 | Without escaped joints, `Set` stores the plain split, and joining it again (or rendering it with `String`) gives back the input |
| StringSliceFlag.MergeRemovesOnlyEscapes | cli/flag_string_slice.go:59-64 | The merged list joins to the same text as the pieces with the escape dropped from every piece but the last that ends in it, so the text is shorter by one escape string per merge and nothing else changes |
| StringSliceFlag.MergeEmptyEscape | cli/flag_string_slice.go:59-63 | With an empty escape string every piece ends in it, so the merge rejoins all pieces into one |
| StringSliceFlag.SetEmptyEscapeKeepsWhole | cli/flag_string_slice.go:56-64 | With an empty escape string, `Set(v)` of a non-empty `v` stores `[v]` |
| StringSliceFlag.SetBareDelimiters | cli/flag_string_slice_test.go:26-28 | `",,,"` gives four empty elements |
| StringSliceFlag.SetEscapedDelimiter | cli/flag_string_slice_test.go:31-33 | `",a\,"` gives `["", "a,"]`: the escape goes and the delimiter stays inside the element |
| StringSliceFlag.SetKeepsOtherEscapes | cli/flag_string_slice_test.go:35-38 | `a,b\,c\\d,e` gives `["a", "b,c\\d", "e"]`: an escape not before a delimiter stays verbatim |
| StringSliceFlag.SetAfterString | cli/flag_string_slice.go:56-83 | For a one-character delimiter, `Set` undoes `String` when no element contains the delimiter, no element but the last ends in the escape string, and the joined text is not empty |
| StringSliceFlag.SetAfterStringLosesEmptyElement | cli/flag_string_slice.go:50-54 | `[""]` does not round-trip: `String` renders it as `""` and `Set("")` stores `[]` |
| StringSliceFlag.StringDoesNotEscape | cli/flag_string_slice_test.go:85-88 | `["a,b", "c"]` renders as `a,b,c`: `String` does not re-escape |
| StringSliceFlag.CreateThenRender | cli/flag_string_slice.go:29-74 | `Get` after `Create` gives back the value, and `ToString` is the quoted `String` of that value |
| GoStrings.UnquoteQuote | cli/flag_string_slice.go:45 | `%q` quoting is inverted by unquoting, so `ToString` loses no information |
| GoStrings.JoinSplit | cli/flag_string_slice.go:56 | Splitting and joining with the same delimiter gives back the input |
| GoStrings.SplitCount | cli/flag_string_slice.go:56 | With a non-empty delimiter the split has one more piece than the delimiter has occurrences; with the empty delimiter it has one piece per code point, one fewer than `strings.Count` reports |
| Slices.Unique | slice/slice.go:31-44 | No duplicates in the result, the same element set as the input, and no longer than the input |
| Slices.UniqueIsSubsequence | slice/slice.go:35-41 | `Unique`'s output is a subsequence of its input |
| Slices.UniqueKeepsFirstOccurrenceOrder | slice/slice.go:35-41 | `Unique` lists elements in the order of their first occurrences |
| Slices.ComputeUnique | slice/slice.go:31-44 | The source's `seen`-set loop computes `Unique` |
| Slices.Without | slice/slice.go:11-25 | The filter keeps exactly the elements of `a` not in `b`, each as often as in `a`, in order |
| Slices.WithoutSnoc | slice/slice.go:11-25 | One outer-loop iteration appends the element exactly when it is not in `b` |
| Slices.WithoutKeepsNoDuplicates | slice/slice.go:7-25 | Filtering a duplicate-free list leaves it duplicate-free |
| Slices.SetDifference | slice/slice.go:4-28 | Elements are exactly those of `a` not in `b`, in order, as a subsequence of `a`; when `unique`, no duplicates and a subsequence of `Unique(a)`, so each element at its first occurrence; each element's count kept otherwise; never longer than `a` |
| Slices.SetDifferenceIsWithout | slice/slice.go:4-28 | The result is the filter against `b` applied to `a`, deduplicated first when `unique` |
| Slices.SetDifferenceEmpty | slice/slice.go:11-25 | Removing nothing without deduplication gives back `a` |
| Slices.Find | slice/slice.go:14-20 | The inner loop finds `x` exactly when `x` is in `b` |
| Slices.ComputeSetDifference | slice/slice.go:4-28 | The nested loops compute `SetDifference` |
| Slices.UniqueExample | slice/slice_test.go:78-82 | `[1, 2, 3, 2]` gives `[1, 2, 3]` |
| Slices.SetDifferenceUniqueExample | slice/slice_test.go:45-51 | `["a", "a", "b"]` minus `["b"]` with deduplication gives `["a"]` |
| StringOrder.LessEqTotal | docs/docs.go:155 | Go's string order is total |
| StringOrder.LessEqAntisymmetric | docs/docs.go:155 | Go's string order is antisymmetric |
| StringOrder.LessEqTransitive | docs/docs.go:155 | Go's string order is transitive |
| StringOrder.Insert | docs/docs.go:155 | Inserting into a sorted list keeps it sorted and adds exactly the new element |
| StringOrder.Sort | docs/docs.go:155 | `sort.Strings` gives a sorted permutation of its input |
| StringOrder.SortedPermutationUnique | docs/docs.go:155 | Two sorted permutations of each other are equal, so any sorting algorithm gives `Sort`'s result |
| Tag.StripHeadPrefix | tag/util.go:7-9 | Removes one leading `refs/heads/` when present, identity otherwise |
| Tag.StripTagPrefix | tag/util.go:13-18 | Removes `refs/tags/`, then at most one `v`, in all four combinations |
| Tag.StripTagPrefixExamples | tag/semver_test.go:8-24 | `refs/tags/1.0.0`, `refs/tags/v1.0.0` and `v1.0.0` give `1.0.0`; `refs/tags/vv1` gives `v1` |
| Tag.IsTaggableIff | tag/util.go:23-33 | Taggable exactly for tag refs, for `refs/heads/<default>`, and for the bare default branch name |
| Tag.IsTaggableExamples | tag/util_test.go:20-43 | `refs/heads/main` and `refs/tags/v1.0.0` are taggable for `main`, `refs/heads/develop` is not, and the bare `main` is |
| Tag.Canonical | tag/semver.go:56-60 | The version text starts with `M.m.p` |
| Tag.ReleaseTags | tag/semver.go:62-73 | Two tags for major 0 and three otherwise; the last is `M.m.p`; each tag is the previous one plus `.` and a numeral; none is `latest` |
| Tag.SemverTags | tag/semver.go:35-74 | `[latest]` without error for a non-tag ref; `[latest]` with the parser's error on failure; on success one to three tags, none `latest` |
| Tag.SemverTagsOfVersion | tag/semver.go:56-73 | A prerelease gives the single canonical tag, major 0 gives `0.m` and `0.m.p`, and a larger major gives `M`, `M.m`, `M.m.p` |
| Tag.ApplySuffix | tag/semver.go:22-28 | Same length and order: `latest` becomes the suffix, every other tag `t` becomes `t-suffix` |
| Tag.SemverTagSuffix | tag/semver.go:12-31 | Propagates the error with no list; returns the tags unchanged for an empty suffix; otherwise applies the suffix to each tag |
| Tag.SemverTagSuffixNotATag | tag/semver_test.go:137-140 | A ref that is not a tag gets the suffix alone |
| Tag.SemverTagsMajorZeroExample | tag/semver_test.go:33 | `refs/tags/0.9.0` gives `0.9` and `0.9.0` |
| Tag.SemverTagsMetadataExample | tag/semver_test.go:36 | `refs/tags/v1.0.0+1` gives `1`, `1.0`, `1.0.0`: build metadata does not appear |
| Tag.SemverTagsPrereleaseExample | tag/semver_test.go:37 | `refs/tags/v1.0.0-alpha.1` gives only `1.0.0-alpha.1` |
| Tag.SemverTagsReleaseExample | tag/semver.go:69-73 | `refs/tags/v1.9.2` gives `1`, `1.9`, `1.9.2` |
| Tag.SemverTagSuffixExample | tag/semver_test.go:141-149 | `refs/tags/v1.9.2` with suffix `nanoserver` gives `1-nanoserver`, `1.9-nanoserver`, `1.9.2-nanoserver` |
| PluginTags.StripHeadPrefix | plugin/tags.go:91-93 | The `plugin` copy removes one leading `refs/heads/` |
| PluginTags.StripTagPrefix | plugin/tags.go:95-100 | The `plugin` copy removes `refs/tags/`, then at most one `v` |
| PluginTags.IsTaggableIff | plugin/tags.go:79-89 | The `plugin` copy accepts exactly the refs listed for the `tag` package, and agrees with it |
| PluginTags.SemverTags | plugin/tags.go:35-74 | The `plugin` copy gives `[latest]` for non-tag refs, `[latest]` with the error on failure, and one, two or three tags by prerelease and major |
| PluginTags.SemverTagSuffix | plugin/tags.go:12-31 | The `plugin` copy propagates errors, keeps the list for an empty suffix, and maps `latest` to the suffix and `t` to `t-suffix` |
| Commit.SplitMessage | plugin/commit.go:240-251 | The title has no newline; without a newline the message is all title; with one, title, newline and description give back the message |
| Commit.SplitAtFirstNewline | plugin/commit.go:242-247 | The title is the text before the first newline, the description everything after it |
| Commit.SplitMessageNoNewlineExamples | plugin/commit_test.go:86-97 | `""` gives `("", "")`, `Title` gives `("Title", "")` |
| Commit.SplitMessageTwoLinesExample | plugin/commit_test.go:98-103 | `Title\nDescription` gives `("Title", "Description")` |
| Commit.SplitMessageBlankLineExample | plugin/commit_test.go:104-108 | A blank line after the title stays at the start of the description |
| Commit.SplitMessageThreeLinesExample | plugin/commit_test.go:40-47 | Later newlines stay in the description |
| Template.AddPrefix | template/template.go:84-94 | Blank input and input already carrying the prefix are returned as they are; anything else gets the prefix in front |
| Template.AddPrefixStartsWithPrefix | template/template.go:89-93 | The result for non-blank input starts with the prefix |
| Template.AddPrefixIdempotent | template/template.go:84-94 | Adding the prefix twice is adding it once |
| Template.AddPrefixEmptyExample | template/template_test.go:20-27 | The empty input stays empty |
| Template.AddPrefixPresentExample | template/template_test.go:28-35 | `pre-existing` is kept |
| Template.AddPrefixAbsentExample | template/template_test.go:36-43 | `-existing` becomes `pre-existing` |
| Template.AddPrefixUntrimmedExample | template/template.go:81-93 | The prefix test looks at the untrimmed input, so ` pre-x` becomes `pre pre-x` |
| Template.LastRunes | template/functions.go:48-58 | A suffix of `s` of `c` characters, or all of `s` when it is shorter, and empty for `c <= 0` |
| Template.GetLastRune | template/functions.go:50-58 | The source's backward-stepping loop returns that suffix |
| Template.ToSentence | template/functions.go:33-46 | `""` stays `""`; otherwise the first character is upper-cased, the rest copied, and a period appended unless one ends the input |
| Template.ToSentenceEndsInPeriod | template/functions.go:40-45 | A non-empty result ends in a period |
| Template.ToSentenceIdempotent | template/functions.go:33-46 | With an idempotent upper-casing that keeps `.`, normalising twice is normalising once |
| Template.ToSentenceNeedsDotFixed | template/functions.go:38-45 | An upper-casing that changes `.` breaks idempotence: `.` gives `X`, then `X.` |
| Template.ToSentenceEmptyExample | template/functions_test.go:15-19 | `""` gives `""` |
| Template.ToSentenceWordExample | template/functions_test.go:30-34 | `word` gives `Word.` |
| Template.ToSentenceSentenceExample | template/functions_test.go:25-29 | `this is a sentence.` gives `This is a sentence.` |
| Environment.Lookup | plugin/environment.go:19-26 | Looking up is looking up in the process environment overridden by the plugin's map; a key is found exactly when either sets it |
| Environment.LookupShadowsProcess | plugin/environment.go:19-26 | The plugin's value shadows the process environment's; a key the plugin does not set gets the same answer as with no plugin variables at all |
| Environment.EntryRoundTrip | plugin/environment.go:33 | Cutting `key=value` at its first `=` gives back key and value, `=` signs in the value kept, for a key without `=` |
| Environment.Value | plugin/environment.go:30-36 | One `key=value` string per variable: as many strings as variables, every variable rendered, each string some variable's |
| Docs.PrepareMultilineString | docs/docs.go:58-65 | No newline in the result; it does not end in `.`, `\r`, `\n` or `\t`; it does not start with white space |
| Docs.TrimmingKeepsNewlinesOut | docs/docs.go:59-64 | The trims add no newline and leave no white space in front |
| Docs.PrepareMultilineStringKeepsCleanLine | docs/docs.go:58-65 | Text that is already one clean line comes back unchanged |
| Docs.PrepareMultilineStringSpaceBeforePeriod | docs/docs.go:58-65 | Periods are trimmed after the spaces, so `a .` gives `a ` |
| Docs.FlagName | docs/docs.go:129-139 | A printed name is never empty |
| Docs.FlagNames | docs/docs.go:128-140 | One printed name per name, in order |
| Docs.NamesLoopIsJoin | docs/docs.go:126-140 | The loop that adds the separator once the text is longer than the opener joins the printed names with the separator |
| Docs.FlagNameOfTrimmed | docs/docs.go:129-139 | A name without outer white space gets `--` when longer than one byte, `-` otherwise |
| Docs.LongFlagName | docs/docs.go:135-136 | A trimmed name of two or more characters is printed `--name` |
| Docs.ShortFlagName | docs/docs.go:137-138 | A one-character ASCII name is printed `-n` |
| Docs.WideShortFlagName | docs/docs.go:131-136 | A one-character name outside ASCII is more than one byte, so it is printed `--n` |
| Docs.FlagDetails | docs/docs.go:161-176 | Starts with `": "` and the usage, and is exactly that unless the flag takes a value and has a default text or value; then ` (default: D)` follows, `D` the default text if set, else the value |
| Docs.FlagDetailsIgnores | docs/docs.go:161-176 | A flag that takes no value shows neither default text nor value, and a non-empty default text hides the current value |
| Docs.FlagEntry | docs/docs.go:126-152 | Opener, printed names joined by the separator, closer, `=value` exactly for a flag taking a value, the details when asked for, then a newline |
| Docs.FlagEntryLongAndShort | docs/docs.go:126-152 | A long name with a one-letter alias gives `--long`, separator, `-s` between opener and closer |
| Docs.DocFlags | docs/docs.go:120-124 | Exactly the documentable flags, each as often as in the input |
| Docs.FlagEntries | docs/docs.go:120-153 | One entry per flag, in order |
| Docs.PrepareFlags | docs/docs.go:113-158 | Sorted, one entry per documentable flag, a permutation of their entries |
| Docs.PrepareFlagsSkipsNonDocFlag | docs/docs.go:120-124 | A flag that cannot be documented leaves no entry, in either flag style |
| Docs.PrepareArgsWithValues | docs/docs.go:105-107 | Sorted; a permutation of the documentable flags' bold-name entries with `=""` and details, one per flag |
| Docs.PrepareArgsSynopsis | docs/docs.go:109-111 | Sorted; a permutation of the documentable flags' bracketed, bar-separated entries with `=[value]`, one per flag |
| Docs.PrepareArgsListFlagEntries | docs/docs.go:105-111 | A string is listed exactly when it is the entry of some documentable flag, in the bold style and in the synopsis style |
| Docs.IndentLines | docs/docs.go:191-193 | The code block starts with the first line behind four spaces and a newline |
| Docs.IndentLinesIsJoin | docs/docs.go:191-193 | The code block is the indented lines joined by newlines, with a final newline |
| Docs.PrepareUsageText | docs/docs.go:178-200 | `""` exactly for no usage text; after trimming outer newlines, a code block for text with an inner newline and a `>` note for a single line |
| Docs.UsageTextCodeBlockLines | docs/docs.go:188-193 | Read back line by line, the code block gives each trimmed line behind four spaces, then an empty remainder |
| Docs.PrepareUsageTextSingleLineExample | docs/docs.go:194-197 | `run it` gives `>run it` and a newline |
| Docs.PrepareUsageTextOnlyNewlinesExample | docs/docs.go:179-196 | Usage text of newlines only is not empty, so it gives an empty note `>` and a newline |
| Docs.PrepareUsage | docs/docs.go:202-214 | `""` exactly for no usage; otherwise the usage, then one newline, or two when prepared usage text follows |
| Docs.PrepareUsageBlankLineIffUsageText | docs/docs.go:202-214 | Measured on the command's raw usage text: the usage line is followed by a blank line exactly when the command has usage text |
| Docs.CommandEntry | docs/docs.go:75-89 | A command's section starts with `level + 2` `#`, a space, the names joined by `, ` and a blank line |
| Docs.PrepareCommands | docs/docs.go:67-103 | One section per command that is neither hidden nor below a hidden command, each headed with at least `level + 2` `#` |
| Docs.CommandSections | docs/docs.go:70-99 | A hidden command gives nothing; a visible one gives its section plus one per visible descendant |
| Docs.PrepareCommandsConcat | docs/docs.go:67-103 | The sections of two consecutive command lists are the two lists of sections concatenated |
| Docs.PrepareCommandsHidden | docs/docs.go:71-73 | A hidden command contributes nothing, its subcommands included |
| Docs.PrepareCommandsPreOrder | docs/docs.go:91-99 | A visible command's section comes first, then its subcommands' sections one level deeper |
| Docs.CommandEntryWithoutFlags | docs/docs.go:79-89 | Without usage text and flags a section is heading, names, blank line and usage |
| Docs.CommandEntryExample | docs/docs.go:79-89 | `build` with alias `b` and usage `Build it` at the top level gives `## build, b`, a blank line and `Build it` |
| Docs.HiddenParentExample | docs/docs.go:71-73 | A visible subcommand under a hidden parent is left out |

## Left out

- JSON-backed map flags, integer flags, networking, process execution, file and user lookup, and
  the `cli.Context` glue: they are I/O or thin wrappers over foreign libraries.
- Template rendering, `LoadFuncMap`, `ToMarkdown` and `GetTemplateData`: they depend on
  `text/template`, sprig, HTTP fetches and the file system.
- The Masterminds semver parser, strict and lenient: it is a function parameter. The model covers
  only what the tag logic does with its result. `Tag.Canonical` stands in for `Version.String()`.
- `unicode.ToUpper`: it is a function parameter. Idempotence of `ToSentence` is proved for
  upper-casings that are idempotent and keep `.` as it is, as `unicode.ToUpper` does.
- Template.ToSentenceEndsInPeriod: requires `toUpper('.') == '.'`, because the source relies on
  `unicode.ToUpper` leaving the period alone.
- UTF-8 decoding: strings are sequences of code points, so invalid UTF-8 is not modelled.
  `ToSentence` and `getLastRune` work on code points, as the source's rune decoding does for valid
  UTF-8.
- `%q` escaping follows `strconv.Quote` for ASCII. Non-printable characters outside ASCII, which
  Go writes as `\u` or `\U` escapes, pass through unescaped.
- StringSliceFlag.Set, StringSliceFlag.Get: require a non-nil destination, because the source
  dereferences the pointer and a nil pointer would make it panic.
- `Get` has no postcondition; `CreateThenRender` states what it returns.
- Slices.Unique, Slices.SetDifference: element equality is assumed reflexive. Go's NaN elements,
  which `==` and map lookups never match, and the run-time panic on interface values whose
  dynamic type is not comparable, are not modelled.
- `os.LookupEnv` is a map parameter, and the order of Go's map iteration in `Environment.Value`
  is not specified. The method states the result up to that order.
- The CLI library's `VisibleFlags`, `Names` and the `DocGenerationFlag` type test are not
  modelled. Their results are the record fields `flags`, `names` and `isDocFlag`.
- `prepareUsageText` and `prepareUsage` take the command's text fields rather than the command.
- Environment.Value: the entry list is stated up to the order recorded in its ghost `order`
  result, because Go's map iteration order is unspecified.

=== FILE: commit.dfy ===
/** Splitting a commit message into its title and description. */
module Commit {
  import opened GoStrings

  /**
   `splitMessage`: the title is the text before the first newline and the description the
   text after it; a message without a newline is all title.
   */
  function SplitMessage(message: string): (r: (string, string))
    ensures '\n' !in r.0
    ensures '\n' !in message ==> r == (message, "")
    ensures '\n' in message ==> r.0 + "\n" + r.1 == message
  {
    var parts := SplitN2(message, "\n");
    ContainsChar(message, '\n');
    ContainsChar(parts[0], '\n');
    if |parts| == 1 then (parts[0], "")
    else if |parts| == 2 then (parts[0], parts[1])
    else assert false; ("", "")
  }

  /** The title ends exactly at the first newline and everything after it is the description. */
  lemma SplitAtFirstNewline(message: string, i: nat)
    requires i < |message| && message[i] == '\n' && '\n' !in message[..i]
    ensures SplitMessage(message) == (message[..i], message[i + 1..])
  {
    var (title, description) := SplitMessage(message);
    assert message[i] in message;
    assert title + "\n" + description == message;
    assert message[|title|] == '\n';
    assert |title| == i;
    assert title == message[..i];
    assert description == message[i + 1..];
  }

  lemma SplitMessageNoNewlineExamples()
    ensures SplitMessage("") == ("", "")
    ensures SplitMessage("Title") == ("Title", "")
  {
    assert '\n' !in "Title";
  }

  // Examples pin their input with a `requires` instead of passing a literal, so that the
  // verifier does not unfold the string functions on the literal eagerly.
  lemma SplitMessageTwoLinesExample(m: string)
    requires m == "Title\nDescription"
    ensures SplitMessage(m) == ("Title", "Description")
  {
    assert m[..5] == "Title" && m[5] == '\n';
    assert '\n' !in m[..5];
    SplitAtFirstNewline(m, 5);
    assert m[6..] == "Description";
  }

  /** A blank line after the title stays at the start of the description. */
  lemma SplitMessageBlankLineExample(m: string)
    requires m == "Title\n\nDescription with blank line"
    ensures SplitMessage(m) == ("Title", "\nDescription with blank line")
  {
    assert m[..5] == "Title" && m[5] == '\n';
    assert '\n' !in m[..5];
    SplitAtFirstNewline(m, 5);
    assert m[6..] == "\nDescription with blank line";
  }

  /** Later newlines stay in the description. */
  lemma SplitMessageThreeLinesExample(m: string)
    requires m == "test_title\ntest_desc\nadditional"
    ensures SplitMessage(m) == ("test_title", "test_desc\nadditional")
  {
    assert m[..10] == "test_title" && m[10] == '\n';
    assert '\n' !in m[..10];
    SplitAtFirstNewline(m, 10);
    assert m[11..] == "test_desc\nadditional";
  }
}

=== FILE: docs.dfy ===
/**
 Markdown documentation of a command-line application: flag lists, usage blocks and the command
 tree. Flags and commands are the records the CLI library hands over; `Command.flags` holds the
 command's visible flags and `names` the name followed by its aliases.
 */
module Docs {
  import opened GoStrings
  import opened StringOrder

  datatype Flag = Flag(
    isDocFlag: bool,
    names: seq<string>,
    takesValue: bool,
    usage: string,
    defaultText: string,
    value: string)

  datatype Command = Command(
    hidden: bool,
    names: seq<string>,
    usage: string,
    usageText: string,
    flags: seq<Flag>,
    subcommands: seq<Command>)

  /** The characters `prepareMultilineString` trims from the right. */
  const MultilineCutset := ".\r\n\t"

  /**
   `prepareMultilineString`: newlines become spaces, outer white space is trimmed, then trailing
   periods, carriage returns, newlines and tabs.
   */
  function PrepareMultilineString(s: string): (r: string)
    ensures '\n' !in r
    ensures |r| > 0 ==> r[|r| - 1] !in MultilineCutset
    ensures |r| > 0 ==> !IsSpace(r[0])
  {
    var flat := ReplaceChar(s, '\n', ' ');
    var r := TrimRightChars(TrimSpace(flat), MultilineCutset);
    TrimmingKeepsNewlinesOut(flat);
    r
  }

  /** Trimming neither adds a newline nor leaves white space in front. */
  lemma TrimmingKeepsNewlinesOut(flat: string)
    requires '\n' !in flat
    ensures var r := TrimRightChars(TrimSpace(flat), MultilineCutset);
      '\n' !in r && (|r| > 0 ==> !IsSpace(r[0]))
  {
    var l := TrimLeftSpace(flat);
    var trimmed := TrimRightSpace(l);
    var r := TrimRightChars(trimmed, MultilineCutset);
    AbsentFromSuffix(flat, l, '\n');
    AbsentFromPrefix(l, trimmed, '\n');
    AbsentFromPrefix(trimmed, r, '\n');
    assert |r| > 0 ==> r[0] == trimmed[0] == l[0];
  }

  lemma AbsentFromPrefix(s: string, p: string, c: char)
    requires HasPrefix(s, p) && c !in s
    ensures c !in p
  {
    assert forall i :: 0 <= i < |p| ==> p[i] == s[i];
  }

  lemma AbsentFromSuffix(s: string, p: string, c: char)
    requires HasSuffix(s, p) && c !in s
    ensures c !in p
  {
    assert forall i :: 0 <= i < |p| ==> p[i] == s[|s| - |p| + i];
  }

  /** Text that is already a clean single line comes back unchanged. */
  lemma PrepareMultilineStringKeepsCleanLine(s: string)
    requires '\n' !in s
    requires |s| > 0 ==> !IsSpace(s[0]) && !IsSpace(s[|s| - 1]) && s[|s| - 1] !in MultilineCutset
    ensures PrepareMultilineString(s) == s
  {
  }

  lemma ReplaceAbsentChar(s: string, from: char, repl: char)
    requires from !in s
    ensures ReplaceChar(s, from, repl) == s
  {
  }

  lemma TrimSpaceOfTrimmed(s: string)
    requires |s| > 0 && !IsSpace(s[0]) && !IsSpace(s[|s| - 1])
    ensures TrimSpace(s) == s
  {
  }

  // Examples pin their input with a `requires` instead of passing a literal, so that the
  // verifier does not unfold the string functions on the literal eagerly.

  /** The period is trimmed after the spaces, so a space before it survives: `"a ."` gives `"a "`. */
  lemma PrepareMultilineStringSpaceBeforePeriod(s: string)
    requires s == "a ."
    ensures PrepareMultilineString(s) == "a "
  {
    assert '\n' !in s;
    ReplaceAbsentChar(s, '\n', ' ');
    assert !IsSpace(s[0]) && !IsSpace(s[2]);
    TrimSpaceOfTrimmed(s);
    TrimRightOneChar(s, "a ");
  }

  /** Trimming the cutset from `t + "."`, where `t` ends outside the cutset, leaves `t`. */
  lemma TrimRightOneChar(s: string, t: string)
    requires s == t + "." && |t| > 0 && t[|t| - 1] !in MultilineCutset
    ensures TrimRightChars(s, MultilineCutset) == t
  {
    assert s[..|s| - 1] == t;
    assert s[|s| - 1] in MultilineCutset;
  }

  /** One flag name as printed: `--name` when its trimmed byte length exceeds one, else `-n`. */
  function FlagName(name: string): (r: string)
    ensures |r| > 0
  {
    var trimmed := TrimSpace(name);
    if ByteLen(trimmed) > 1 then "--" + trimmed else "-" + trimmed
  }

  function FlagNames(names: seq<string>): (r: seq<string>)
    ensures |r| == |names|
    ensures forall i :: 0 <= i < |names| ==> r[i] == FlagName(names[i])
  {
    if |names| == 0 then [] else [FlagName(names[0])] + FlagNames(names[1..])
  }

  /**
   The source's name loop over the printed names: a separator goes in front of a name whenever the
   text built so far is longer, in bytes, than the opener.
   */
  function AppendNames(acc: string, opener: string, printed: seq<string>, sep: string): string
    decreases |printed|
  {
    if |printed| == 0 then acc
    else
      var acc := if ByteLen(acc) > ByteLen(opener) then acc + sep else acc;
      AppendNames(acc + printed[0], opener, printed[1..], sep)
  }

  /** `sep + p` for every piece, concatenated. */
  function SepEach(parts: seq<string>, sep: string): string {
    if |parts| == 0 then "" else sep + parts[0] + SepEach(parts[1..], sep)
  }

  lemma {:induction false} JoinIsFirstThenSepEach(parts: seq<string>, sep: string)
    requires |parts| >= 1
    ensures Join(parts, sep) == parts[0] + SepEach(parts[1..], sep)
    decreases |parts|
  {
    if |parts| > 1 {
      JoinIsFirstThenSepEach(parts[1..], sep);
      assert parts[1..][1..] == parts[2..];
    }
  }

  lemma LongerThanOpener(opener: string, x: string)
    requires x != ""
    ensures ByteLen(opener + x) > ByteLen(opener)
  {
    ByteLenAppend(opener, x);
  }

  /** Once something follows the opener, every further name is preceded by the separator. */
  lemma {:induction false} AppendNamesAfterFirst(opener: string, x: string, printed: seq<string>, sep: string)
    requires x != ""
    ensures AppendNames(opener + x, opener, printed, sep) == opener + x + SepEach(printed, sep)
    decreases |printed|
  {
    if |printed| > 0 {
      var n := printed[0];
      var rest := SepEach(printed[1..], sep);
      LongerThanOpener(opener, x);
      var x' := x + sep + n;
      assert opener + x + sep + n == opener + x';
      AppendNamesAfterFirst(opener, x', printed[1..], sep);
      assert opener + x' + rest == opener + x + (sep + n + rest);
    }
  }

  /** The name loop joins the printed names with the separator, since no printed name is empty. */
  lemma NamesLoopIsJoin(opener: string, printed: seq<string>, sep: string)
    requires forall i :: 0 <= i < |printed| ==> printed[i] != ""
    ensures AppendNames(opener, opener, printed, sep) == opener + Join(printed, sep)
  {
    if |printed| > 0 {
      assert opener + "" == opener;
      AppendNamesAfterFirst(opener, printed[0], printed[1..], sep);
      JoinIsFirstThenSepEach(printed, sep);
    }
  }

  /**
   `flagDetails`: `": "` and the usage, then ` (default: D)` for a flag taking a value whose default
   text, or failing that current value, `D` is non-empty.
   */
  function FlagDetails(f: Flag): (r: string)
    ensures HasPrefix(r, ": " + f.usage)
    ensures r == ": " + f.usage <==> !f.takesValue || (f.defaultText == "" && f.value == "")
    ensures f.takesValue && f.defaultText != "" ==> r == ": " + f.usage + " (default: " + f.defaultText + ")"
    ensures f.takesValue && f.defaultText == "" && f.value != "" ==>
      r == ": " + f.usage + " (default: " + f.value + ")"
  {
    var description :=
      if f.takesValue then
        var defaultText := if f.defaultText == "" then f.value else f.defaultText;
        if defaultText != "" then f.usage + " (default: " + defaultText + ")" else f.usage
      else f.usage;
    HeadIsPrefix(": " + f.usage, description[|f.usage|..]);
    assert description == f.usage + description[|f.usage|..];
    ": " + description
  }

  /**
   What the details ignore: a flag that takes no value shows neither its default text nor its
   value, and a non-empty default text hides the current value.
   */
  lemma FlagDetailsIgnores(f: Flag, defaultText: string, value: string)
    ensures !f.takesValue ==> FlagDetails(f.(defaultText := defaultText, value := value)) == FlagDetails(f)
    ensures f.defaultText != "" ==> FlagDetails(f.(value := value)) == FlagDetails(f)
  {
  }

  /** The text of one flag: names between opener and closer, value, details, newline. */
  function FlagEntry(f: Flag, sep: string, opener: string, closer: string, value: string, addDetails: bool): (r: string)
    ensures r == opener + Join(FlagNames(f.names), sep) + closer
      + (if f.takesValue then "=" + value else "")
      + (if addDetails then FlagDetails(f) else "")
      + "\n"
  {
    var printed := FlagNames(f.names);
    NamesLoopIsJoin(opener, printed, sep);
    var arg := AppendNames(opener, opener, printed, sep) + closer;
    var arg := arg + (if f.takesValue then "=" + value else "");
    var arg := arg + (if addDetails then FlagDetails(f) else "");
    arg + "\n"
  }

  /** The flags that can be documented, in order. */
  function DocFlags(flags: seq<Flag>): (r: seq<Flag>)
    ensures forall f :: multiset(r)[f] == if f.isDocFlag then multiset(flags)[f] else 0
    ensures |r| <= |flags|
  {
    if |flags| == 0 then []
    else
      assert flags == [flags[0]] + flags[1..];
      (if flags[0].isDocFlag then [flags[0]] else []) + DocFlags(flags[1..])
  }

  function FlagEntries(flags: seq<Flag>, sep: string, opener: string, closer: string, value: string, addDetails: bool): (r: seq<string>)
    ensures |r| == |flags|
    ensures forall i :: 0 <= i < |flags| ==> r[i] == FlagEntry(flags[i], sep, opener, closer, value, addDetails)
  {
    if |flags| == 0 then []
    else [FlagEntry(flags[0], sep, opener, closer, value, addDetails)] + FlagEntries(flags[1..], sep, opener, closer, value, addDetails)
  }

  /** `prepareFlags`: one entry per documentable flag, sorted. */
  function PrepareFlags(flags: seq<Flag>, sep: string, opener: string, closer: string, value: string, addDetails: bool): (r: seq<string>)
    ensures Sorted(r)
    ensures multiset(r) == multiset(FlagEntries(DocFlags(flags), sep, opener, closer, value, addDetails))
    ensures |r| == |DocFlags(flags)|
  {
    var entries := FlagEntries(DocFlags(flags), sep, opener, closer, value, addDetails);
    var r := Sort(entries);
    assert |r| == |multiset(r)| == |multiset(entries)| == |entries|;
    r
  }

  lemma FlagNameOfTrimmed(name: string)
    requires |name| > 0 && !IsSpace(name[0]) && !IsSpace(name[|name| - 1])
    ensures FlagName(name) == (if ByteLen(name) > 1 then "--" else "-") + name
  {
    TrimSpaceOfTrimmed(name);
  }

  /** A trimmed name of two or more characters is printed with `--`. */
  lemma LongFlagName(name: string)
    requires |name| > 1 && !IsSpace(name[0]) && !IsSpace(name[|name| - 1])
    ensures FlagName(name) == "--" + name
  {
    FlagNameOfTrimmed(name);
  }

  /** A one-character ASCII name is printed with `-`. */
  lemma ShortFlagName(name: string)
    requires |name| == 1 && !IsSpace(name[0]) && name[0] as int < 0x80
    ensures FlagName(name) == "-" + name
  {
    FlagNameOfTrimmed(name);
    assert name[1..] == "";
  }

  /** A multi-byte character alone is longer than one byte, so it gets `--` as in the source. */
  lemma WideShortFlagName(name: string)
    requires |name| == 1 && !IsSpace(name[0]) && name[0] as int >= 0x80
    ensures FlagName(name) == "--" + name
  {
    FlagNameOfTrimmed(name);
    assert name[1..] == "";
  }

  lemma JoinPair(parts: seq<string>, a: string, b: string, sep: string)
    requires parts == [a, b]
    ensures Join(parts, sep) == a + sep + b
  {
    assert parts[1..] == [b];
  }

  /**
   A flag with a long name and a one-letter alias: `--long`, the separator, `-s`, between opener
   and closer.
   */
  lemma FlagEntryLongAndShort(f: Flag, sep: string, opener: string, closer: string, value: string, addDetails: bool)
    requires |f.names| == 2
    requires |f.names[0]| > 1 && !IsSpace(f.names[0][0]) && !IsSpace(f.names[0][|f.names[0]| - 1])
    requires |f.names[1]| == 1 && !IsSpace(f.names[1][0]) && f.names[1][0] as int < 0x80
    ensures FlagEntry(f, sep, opener, closer, value, addDetails)
         == opener + ("--" + f.names[0] + sep + "-" + f.names[1]) + closer
            + (if f.takesValue then "=" + value else "")
            + (if addDetails then FlagDetails(f) else "")
            + "\n"
  {
    LongFlagName(f.names[0]);
    ShortFlagName(f.names[1]);
    var printed := FlagNames(f.names);
    assert printed == [FlagName(f.names[0]), FlagName(f.names[1])];
    JoinPair(printed, "--" + f.names[0], "-" + f.names[1], sep);
  }

  /** Flags that cannot be documented are skipped. */
  lemma PrepareFlagsSkipsNonDocFlag(f: Flag, g: Flag)
    requires f.isDocFlag && !g.isDocFlag
    ensures PrepareArgsWithValues([f, g]) == [FlagEntry(f, ", ", "**", "**", "\"\"", true)]
    ensures PrepareArgsSynopsis([g, f]) == [FlagEntry(f, "|", "[", "]", "[value]", false)]
  {
    var flags := [f, g];
    assert flags[1..][1..] == [];
    assert DocFlags(flags) == [f];
    var r := PrepareArgsWithValues(flags);
    assert r[0] in r;
    var flags' := [g, f];
    assert flags'[1..][1..] == [];
    assert DocFlags(flags') == [f];
    var r' := PrepareArgsSynopsis(flags');
    assert r'[0] in r';
  }

  /** `prepareArgsWithValues`: bold names, `=""` for a value, details. */
  function PrepareArgsWithValues(flags: seq<Flag>): (r: seq<string>)
    ensures Sorted(r) && |r| == |DocFlags(flags)|
    ensures multiset(r) == multiset(FlagEntries(DocFlags(flags), ", ", "**", "**", "\"\"", true))
  {
    PrepareFlags(flags, ", ", "**", "**", "\"\"", true)
  }

  /** `prepareArgsSynopsis`: names in brackets separated by `|`, `=[value]` for a value. */
  function PrepareArgsSynopsis(flags: seq<Flag>): (r: seq<string>)
    ensures Sorted(r) && |r| == |DocFlags(flags)|
    ensures multiset(r) == multiset(FlagEntries(DocFlags(flags), "|", "[", "]", "[value]", false))
  {
    PrepareFlags(flags, "|", "[", "]", "[value]", false)
  }

  /** A string is listed exactly when it is the entry of some documentable flag, in either style. */
  lemma PrepareArgsListFlagEntries(flags: seq<Flag>)
    ensures forall e :: e in PrepareArgsWithValues(flags) <==>
      exists f :: f in DocFlags(flags) && e == FlagEntry(f, ", ", "**", "**", "\"\"", true)
    ensures forall e :: e in PrepareArgsSynopsis(flags) <==>
      exists f :: f in DocFlags(flags) && e == FlagEntry(f, "|", "[", "]", "[value]", false)
  {
    EntriesOfSort(DocFlags(flags), PrepareArgsWithValues(flags), ", ", "**", "**", "\"\"", true);
    EntriesOfSort(DocFlags(flags), PrepareArgsSynopsis(flags), "|", "[", "]", "[value]", false);
  }

  lemma EntriesOfSort(flags: seq<Flag>, r: seq<string>, sep: string, opener: string, closer: string, value: string, addDetails: bool)
    requires multiset(r) == multiset(FlagEntries(flags, sep, opener, closer, value, addDetails))
    ensures forall e :: e in r <==> exists f :: f in flags && e == FlagEntry(f, sep, opener, closer, value, addDetails)
  {
    var entries := FlagEntries(flags, sep, opener, closer, value, addDetails);
    forall e ensures e in r <==> exists f :: f in flags && e == FlagEntry(f, sep, opener, closer, value, addDetails) {
      assert e in r <==> e in multiset(r);
      assert e in entries <==> e in multiset(entries);
      if e in entries {
        var i :| 0 <= i < |entries| && entries[i] == e;
        assert flags[i] in flags;
      }
      if exists f :: f in flags && e == FlagEntry(f, sep, opener, closer, value, addDetails) {
        var f :| f in flags && e == FlagEntry(f, sep, opener, closer, value, addDetails);
        var i :| 0 <= i < |flags| && flags[i] == f;
        assert entries[i] == e;
      }
    }
  }

  /** Four spaces before each line and a newline after it: a Markdown code block. */
  function IndentLines(lines: seq<string>): (r: string)
    ensures |lines| > 0 ==> HasPrefix(r, "    " + lines[0] + "\n")
  {
    if |lines| == 0 then ""
    else
      var head := "    " + lines[0] + "\n";
      var r := head + IndentLines(lines[1..]);
      assert r[..|head|] == head;
      r
  }

  /**
   `prepareUsageText`: outer newlines are trimmed; text with an inner newline becomes a code
   block, a single line becomes a `>` note; no usage text gives nothing.
   */
  function PrepareUsageText(usageText: string): (r: string)
    ensures r == "" <==> usageText == ""
    ensures usageText != "" && '\n' !in TrimChars(usageText, "\n") ==> r == ">" + TrimChars(usageText, "\n") + "\n"
    ensures '\n' in TrimChars(usageText, "\n") ==> r == IndentLines(Split(TrimChars(usageText, "\n"), "\n"))
  {
    if usageText == "" then ""
    else
      var prepared := TrimChars(usageText, "\n");
      ContainsChar(prepared, '\n');
      if Contains(prepared, "\n") then IndentLines(Split(prepared, "\n"))
      else ">" + prepared + "\n"
  }

  /** The lines of `lines`, each behind four spaces. */
  function Indented(lines: seq<string>): (r: seq<string>)
    ensures |r| == |lines|
    ensures forall i :: 0 <= i < |lines| ==> r[i] == "    " + lines[i]
  {
    if |lines| == 0 then [] else ["    " + lines[0]] + Indented(lines[1..])
  }

  lemma {:induction false} IndentLinesIsJoin(lines: seq<string>)
    requires |lines| >= 1
    ensures IndentLines(lines) == Join(Indented(lines) + [""], "\n")
    decreases |lines|
  {
    var parts := Indented(lines) + [""];
    if |lines| == 1 {
      assert parts == ["    " + lines[0], ""];
      assert parts[1..] == [""];
    } else {
      IndentLinesIsJoin(lines[1..]);
      assert parts[1..] == Indented(lines[1..]) + [""];
      JoinCons(parts[0], parts[1..], "\n");
      assert parts == [parts[0]] + parts[1..];
    }
  }

  /**
   Read back line by line, a code block gives each line of the trimmed usage text behind four
   spaces, then the empty remainder after the final newline.
   */
  lemma UsageTextCodeBlockLines(usageText: string)
    requires '\n' in TrimChars(usageText, "\n")
    ensures Split(PrepareUsageText(usageText), "\n") == Indented(Split(TrimChars(usageText, "\n"), "\n")) + [""]
  {
    var lines := Split(TrimChars(usageText, "\n"), "\n");
    var parts := Indented(lines) + [""];
    IndentLinesIsJoin(lines);
    SplitPiecesAvoidSep(TrimChars(usageText, "\n"), "\n");
    forall k | 0 <= k < |parts| ensures '\n' !in parts[k] {
      if k < |lines| {
        forall j | 0 <= j < |lines[k]| ensures lines[k][j] != '\n' {
          OccursAtChar(lines[k], '\n', j);
        }
        assert parts[k] == "    " + lines[k];
      }
    }
    SplitJoinChar(parts, '\n');
  }

  lemma PrepareUsageTextSingleLineExample(u: string)
    requires u == "run it"
    ensures PrepareUsageText(u) == ">run it\n"
  {
    assert u[0] !in "\n";
    assert TrimLeftChars(u, "\n") == u;
    assert u[5] !in "\n";
    assert TrimRightChars(u, "\n") == u;
    assert '\n' !in u;
  }

  /** Usage text of newlines only is not empty, so it gives an empty note. */
  lemma PrepareUsageTextOnlyNewlinesExample()
    ensures PrepareUsageText("\n\n") == ">\n"
  {
    assert TrimLeftChars("\n\n", "\n") == "";
  }

  /** `prepareUsage`: the usage line, with a blank line after it when usage text follows. */
  function PrepareUsage(usage: string, usageText: string): (r: string)
    ensures r == "" <==> usage == ""
    ensures usage != "" ==> HasPrefix(r, usage) && r[|usage|..] == if usageText == "" then "\n" else "\n\n"
  {
    if usage == "" then ""
    else
      var r := usage + "\n";
      var r := if usageText != "" then r + "\n" else r;
      assert r[..|usage|] == usage;
      r
  }

  /**
   In terms of the command's own text: the usage line is followed by a blank line exactly when the
   command has usage text, whatever that text is.
   */
  lemma PrepareUsageBlankLineIffUsageText(usage: string, usageText: string)
    requires usage != ""
    ensures PrepareUsage(usage, PrepareUsageText(usageText))[|usage|..] == "\n\n" <==> usageText != ""
    ensures PrepareUsage(usage, PrepareUsageText(usageText))[|usage|..] == "\n" <==> usageText == ""
  {
  }

  /** `#` repeated `level + 2` times, the heading of a command at that depth. */
  function Heading(level: nat): string {
    Repeat('#', level + 2)
  }

  /** Every section starts with at least `level + 2` `#` characters. */
  predicate AllHeaded(sections: seq<string>, level: nat) {
    forall i :: 0 <= i < |sections| ==> HasPrefix(sections[i], Heading(level))
  }

  lemma AllHeadedDeeper(sections: seq<string>, level: nat)
    requires AllHeaded(sections, level + 1)
    ensures AllHeaded(sections, level)
  {
    assert Heading(level + 1)[..level + 2] == Heading(level);
    forall i | 0 <= i < |sections| ensures HasPrefix(sections[i], Heading(level)) {
      assert sections[i][..level + 2] == sections[i][..level + 3][..level + 2];
    }
  }

  lemma AllHeadedConcat(a: seq<string>, b: seq<string>, level: nat)
    requires AllHeaded(a, level) && AllHeaded(b, level)
    ensures AllHeaded(a + b, level)
  {
    forall i | 0 <= i < |a + b| ensures HasPrefix((a + b)[i], Heading(level)) {
      if i >= |a| {
        assert (a + b)[i] == b[i - |a|];
      }
    }
  }

  lemma EntryHeaded(entry: string, level: nat, names: string)
    requires HasPrefix(entry, Heading(level) + " " + names + "\n\n")
    ensures AllHeaded([entry], level)
  {
    assert entry[..level + 2] == (Heading(level) + " " + names + "\n\n")[..level + 2];
  }

  /** One command's section: heading with its names, usage, usage text, then its flags. */
  function CommandEntry(c: Command, level: nat): (r: string)
    ensures HasPrefix(r, Heading(level) + " " + Join(c.names, ", ") + "\n\n")
  {
    var usageText := PrepareUsageText(c.usageText);
    var usage := PrepareUsage(c.usage, usageText);
    var head := Heading(level) + " " + Join(c.names, ", ") + "\n\n";
    var flags := PrepareArgsWithValues(c.flags);
    var tail := if |flags| > 0 then "\n" + Join(flags, "\n") else "";
    HeadIsPrefix(head, usage + usageText + tail);
    head + (usage + usageText + tail)
  }

  lemma HeadIsPrefix(head: string, rest: string)
    ensures HasPrefix(head + rest, head)
  {
    assert (head + rest)[..|head|] == head;
  }

  /** The number of commands not hidden and not below a hidden command. */
  function VisibleCount(cs: seq<Command>): nat
    decreases cs
  {
    if |cs| == 0 then 0
    else
      (if cs[0].hidden then 0 else 1 + VisibleCount(cs[0].subcommands)) + VisibleCount(cs[1..])
  }

  /**
   `prepareCommands`: a section per visible command, each followed by the sections of its
   subcommands one level deeper; a hidden command is skipped with everything below it.
   */
  function PrepareCommands(cs: seq<Command>, level: nat): (r: seq<string>)
    ensures |r| == VisibleCount(cs)
    ensures AllHeaded(r, level)
    decreases cs, 1
  {
    if |cs| == 0 then []
    else
      var here := CommandSections(cs[0], level);
      var rest := PrepareCommands(cs[1..], level);
      AllHeadedConcat(here, rest, level);
      here + rest
  }

  /** The loop body of `prepareCommands` for one command. */
  function CommandSections(c: Command, level: nat): (r: seq<string>)
    ensures |r| == if c.hidden then 0 else 1 + VisibleCount(c.subcommands)
    ensures AllHeaded(r, level)
    decreases c, 0
  {
    if c.hidden then []
    else
      var entry := CommandEntry(c, level);
      var sub := PrepareCommands(c.subcommands, level + 1);
      EntryHeaded(entry, level, Join(c.names, ", "));
      AllHeadedDeeper(sub, level);
      AllHeadedConcat([entry], sub, level);
      [entry] + sub
  }

  /** Sections of consecutive command lists are the concatenation of their sections. */
  lemma {:induction false} PrepareCommandsConcat(a: seq<Command>, b: seq<Command>, level: nat)
    ensures PrepareCommands(a + b, level) == PrepareCommands(a, level) + PrepareCommands(b, level)
    decreases |a|
  {
    if |a| == 0 {
      assert a + b == b;
    } else {
      assert (a + b)[0] == a[0];
      assert (a + b)[1..] == a[1..] + b;
      PrepareCommandsConcat(a[1..], b, level);
    }
  }

  /** A hidden command contributes nothing, its subcommands included. */
  lemma PrepareCommandsHidden(c: Command, level: nat)
    requires c.hidden
    ensures PrepareCommands([c], level) == []
  {
    assert [c][1..] == [];
  }

  /** A visible command's section comes first, then its subcommands' sections one level deeper. */
  lemma PrepareCommandsPreOrder(c: Command, level: nat)
    requires !c.hidden
    ensures PrepareCommands([c], level) == [CommandEntry(c, level)] + PrepareCommands(c.subcommands, level + 1)
  {
    assert [c][1..] == [];
  }

  lemma CommandEntryWithoutFlags(c: Command, level: nat)
    requires c.usageText == "" && PrepareArgsWithValues(c.flags) == []
    ensures CommandEntry(c, level) == Heading(level) + " " + Join(c.names, ", ") + "\n\n" + PrepareUsage(c.usage, "")
  {
    var head := Heading(level) + " " + Join(c.names, ", ") + "\n\n";
    assert PrepareUsageText(c.usageText) == "";
    assert CommandEntry(c, level) == head + (PrepareUsage(c.usage, "") + "" + "");
  }

  /** A command with names and usage only: `## build, b`, a blank line, the usage line. */
  lemma CommandEntryExample(c: Command)
    requires c == Command(false, ["build", "b"], "Build it", "", [], [])
    ensures CommandEntry(c, 0) == "## build, b\n\nBuild it\n"
  {
    assert |PrepareArgsWithValues(c.flags)| == 0;
    CommandEntryWithoutFlags(c, 0);
    CommandEntryExampleParts(c.names, c.usage);
  }

  lemma CommandEntryExampleParts(names: seq<string>, usage: string)
    requires names == ["build", "b"] && usage == "Build it"
    ensures Heading(0) + " " + Join(names, ", ") + "\n\n" + PrepareUsage(usage, "") == "## build, b\n\nBuild it\n"
  {
    HeadingZero();
    JoinOfPair(names);
    assert PrepareUsage(usage, "") == usage + "\n";
    CommandEntryExampleText();
  }

  lemma HeadingZero()
    ensures Heading(0) == "##"
  {
    assert Repeat('#', 2) == "##";
  }

  lemma JoinOfPair(names: seq<string>)
    requires names == ["build", "b"]
    ensures Join(names, ", ") == "build" + ", " + "b"
  {
    assert names[1..] == ["b"];
  }

  /** The section text of `CommandEntryExample`, assembled. */
  lemma CommandEntryExampleText()
    ensures "##" + " " + ("build" + ", " + "b") + "\n\n" + ("Build it" + "\n") == "## build, b\n\nBuild it\n"
  {
  }

  /** Under a hidden parent even a visible subcommand is left out. */
  lemma HiddenParentExample()
    ensures PrepareCommands([Command(true, ["a"], "", "", [], [Command(false, ["b"], "", "", [], [])])], 0) == []
  {
    PrepareCommandsHidden(Command(true, ["a"], "", "", [], [Command(false, ["b"], "", "", [], [])]), 0);
  }
}

=== FILE: environment.dfy ===
/**
 The plugin's extra environment variables: a map overlaid on the process environment. The process
 environment is passed in as a map.
 */
module Environment {
  import opened GoStrings

  type Env = map<string, string>

  /** `os.LookupEnv`: the value and `true` when the variable is set, `""` and `false` otherwise. */
  function OsLookup(osEnv: Env, key: string): (r: (string, bool))
    ensures r.1 <==> key in osEnv
    ensures r.1 ==> r.0 == osEnv[key]
    ensures !r.1 ==> r.0 == ""
  {
    if key in osEnv then (osEnv[key], true) else ("", false)
  }

  /**
   `Environment.Lookup`: the process environment overridden by the plugin's own variables; a key
   is found when either of them sets it.
   */
  function Lookup(e: Env, osEnv: Env, key: string): (r: (string, bool))
    ensures r == OsLookup(osEnv + e, key)
    ensures r.1 <==> key in e || key in osEnv
  {
    if key in e then (e[key], true) else OsLookup(osEnv, key)
  }

  /**
   The plugin's value shadows the process environment's, and a key the plugin does not set is
   answered by the process environment alone, as if there were no plugin variables.
   */
  lemma LookupShadowsProcess(e: Env, osEnv: Env, key: string)
    ensures key in e ==> Lookup(e, osEnv, key) == (e[key], true)
    ensures key !in e ==> Lookup(e, osEnv, key) == Lookup(map[], osEnv, key) == OsLookup(osEnv, key)
  {
    assert osEnv + map[] == osEnv;
  }

  /** One rendered variable: `key=value`. */
  function Entry(key: string, value: string): string {
    key + "=" + value
  }

  /**
   Cutting an entry at its first `=` gives back the key and the value, `=` signs of the value
   included, as long as the key has no `=`.
   */
  lemma EntryRoundTrip(key: string, value: string)
    requires '=' !in key
    ensures SplitN2(Entry(key, value), "=") == [key, value]
  {
    var s := Entry(key, value);
    IndexChar(s, '=');
    assert s[|key|] == '=';
    var i := Index(s, "=");
    assert s[..|key|] == key;
    assert i == |key|;
    assert s[..i] == key;
    assert s[i + 1..] == value;
  }

  /**
   `Environment.Value`: one `key=value` string per variable. Go visits the map in no fixed order;
   the order picked here is an arbitrary choice, recorded in `order`.
   */
  method Value(e: Env) returns (values: seq<string>, ghost order: seq<string>)
    ensures |values| == |e| == |order|
    ensures forall i, j :: 0 <= i < j < |order| ==> order[i] != order[j]
    ensures forall k :: k in order <==> k in e
    ensures forall i :: 0 <= i < |values| ==> order[i] in e && values[i] == Entry(order[i], e[order[i]])
    ensures forall k :: k in e ==> Entry(k, e[k]) in values
  {
    values, order := [], [];
    var rest := e.Keys;
    while rest != {}
      invariant rest <= e.Keys
      invariant forall k :: k in order <==> k in e && k !in rest
      invariant forall i, j :: 0 <= i < j < |order| ==> order[i] != order[j]
      invariant |values| == |order| && |order| + |rest| == |e.Keys|
      invariant forall i :: 0 <= i < |values| ==> order[i] in e && values[i] == Entry(order[i], e[order[i]])
      invariant forall k :: k in e && k !in rest ==> Entry(k, e[k]) in values
      decreases |rest|
    {
      var key :| key in rest;
      values := values + [Entry(key, e[key])];
      order := order + [key];
      rest := rest - {key};
    }
    assert |e| == |e.Keys|;
  }
}

=== FILE: go_strings.dfy ===
/**
 This module models the parts of Go's `strings`, `strconv` and `fmt` packages that the
 plugin helpers call. A Go string is modelled as the sequence of its Unicode code points;
 its UTF-8 byte length is only modelled where the code measures it (`ByteLen`).
 */
module GoStrings {
  import opened Results

  predicate HasPrefix(s: string, prefix: string) {
    |prefix| <= |s| && s[..|prefix|] == prefix
  }

  predicate HasSuffix(s: string, suffix: string) {
    |suffix| <= |s| && s[|s| - |suffix|..] == suffix
  }

  /** `strings.TrimPrefix`: drops `prefix` once when `s` starts with it. */
  function TrimPrefix(s: string, prefix: string): (r: string)
    ensures HasPrefix(s, prefix) ==> prefix + r == s
    ensures !HasPrefix(s, prefix) ==> r == s
  {
    if HasPrefix(s, prefix) then s[|prefix|..] else s
  }

  /** Past a prefix `p`, the rest starts with `q` exactly when the whole starts with `p + q`. */
  lemma PrefixThenPrefix(s: string, p: string, q: string)
    requires HasPrefix(s, p)
    ensures HasPrefix(s, p + q) <==> HasPrefix(s[|p|..], q)
  {
    if HasPrefix(s[|p|..], q) {
      assert s[..|p| + |q|] == s[..|p|] + s[|p|..][..|q|];
    }
    if HasPrefix(s, p + q) {
      assert s[|p|..][..|q|] == s[..|p| + |q|][|p|..];
    }
  }

  /** `sep` occurs in `s` starting at position `i`. */
  predicate OccursAt(s: string, sep: string, i: int) {
    0 <= i && i + |sep| <= |s| && s[i..i + |sep|] == sep
  }

  /** `strings.Index`: the first position at which `sep` occurs in `s`, or -1. */
  function Index(s: string, sep: string): (r: int)
    ensures -1 <= r <= |s|
    ensures r >= 0 ==> OccursAt(s, sep, r)
    ensures forall i :: 0 <= i && (r < 0 || i < r) ==> !OccursAt(s, sep, i)
  {
    IndexFrom(s, sep, 0)
  }

  function IndexFrom(s: string, sep: string, k: nat): (r: int)
    requires k <= |s|
    ensures r == -1 || (k <= r <= |s| && OccursAt(s, sep, r))
    ensures forall i :: k <= i && (r < 0 || i < r) ==> !OccursAt(s, sep, i)
    decreases |s| - k
  {
    if k + |sep| > |s| then -1
    else if OccursAt(s, sep, k) then k
    else IndexFrom(s, sep, k + 1)
  }

  /** `strings.Contains` */
  predicate Contains(s: string, sub: string) {
    Index(s, sub) >= 0
  }

  /** A one-character separator occurs exactly where that character is. */
  lemma OccursAtChar(s: string, c: char, i: int)
    ensures OccursAt(s, [c], i) <==> 0 <= i < |s| && s[i] == c
  {
    if 0 <= i < |s| {
      assert s[i..i + 1] == [s[i]];
    }
  }

  lemma ContainsChar(s: string, c: char)
    ensures Contains(s, [c]) <==> c in s
  {
    if c in s {
      var i :| 0 <= i < |s| && s[i] == c;
      OccursAtChar(s, c, i);
    }
    if Contains(s, [c]) {
      OccursAtChar(s, c, Index(s, [c]));
    }
  }

  /** `strings.Index` with a one-character separator finds the first copy of that character. */
  lemma IndexChar(s: string, c: char)
    ensures Index(s, [c]) >= 0 ==> s[Index(s, [c])] == c && c !in s[..Index(s, [c])]
    ensures Index(s, [c]) < 0 ==> c !in s
  {
    var r := Index(s, [c]);
    if r >= 0 {
      OccursAtChar(s, c, r);
      forall j | 0 <= j < r ensures s[..r][j] != c {
        OccursAtChar(s, c, j);
      }
    } else {
      forall j | 0 <= j < |s| ensures s[j] != c {
        OccursAtChar(s, c, j);
      }
    }
  }

  /** `strings.Split`. An empty separator splits after every code point. */
  function Split(s: string, sep: string): (r: seq<string>)
    ensures sep != "" || s != "" ==> |r| >= 1
  {
    if sep == "" then Explode(s) else SplitOn(s, sep)
  }

  function Explode(s: string): (r: seq<string>)
    ensures |r| == |s|
    ensures forall i :: 0 <= i < |s| ==> r[i] == [s[i]]
  {
    seq(|s|, i requires 0 <= i < |s| => [s[i]])
  }

  function SplitOn(s: string, sep: string): (r: seq<string>)
    requires sep != ""
    ensures |r| >= 1
    decreases |s|
  {
    var i := Index(s, sep);
    if i < 0 then [s] else [s[..i]] + SplitOn(s[i + |sep|..], sep)
  }

  /** Nothing before the first occurrence contains the separator. */
  lemma NoEarlierOccurrence(s: string, sep: string, i: nat)
    requires sep != "" && i <= |s| && Index(s, sep) == i
    ensures !Contains(s[..i], sep)
  {
    forall j | 0 <= j && j + |sep| <= i
      ensures OccursAt(s[..i], sep, j) == OccursAt(s, sep, j)
    {
      assert s[..i][j..j + |sep|] == s[j..j + |sep|];
    }
  }

  /** `strings.SplitN(s, sep, 2)`: at most two pieces, cut at the first separator. */
  function SplitN2(s: string, sep: string): (r: seq<string>)
    ensures |r| <= 2
    ensures sep != "" ==> |r| >= 1
    ensures sep != "" && |r| == 2 ==> r[0] + sep + r[1] == s && !Contains(r[0], sep)
    ensures sep != "" && |r| == 1 ==> r[0] == s && !Contains(s, sep)
  {
    if sep == "" then
      (if |s| == 0 then [] else if |s| == 1 then [s] else [s[..1], s[1..]])
    else
      var i := Index(s, sep);
      if i < 0 then [s]
      else
        NoEarlierOccurrence(s, sep, i);
        [s[..i], s[i + |sep|..]]
  }

  /** `strings.Join` */
  function Join(parts: seq<string>, sep: string): string {
    if |parts| == 0 then ""
    else if |parts| == 1 then parts[0]
    else parts[0] + sep + Join(parts[1..], sep)
  }

  lemma JoinCons(p: string, parts: seq<string>, sep: string)
    requires |parts| >= 1
    ensures Join([p] + parts, sep) == p + sep + Join(parts, sep)
  {
    assert ([p] + parts)[1..] == parts;
  }

  /** `strings.Count`: non-overlapping occurrences, or the code point count plus one for "". */
  function Count(s: string, sep: string): nat
    decreases |s|
  {
    if sep == "" then |s| + 1
    else
      var i := Index(s, sep);
      if i < 0 then 0 else 1 + Count(s[i + |sep|..], sep)
  }

  /** Splitting and re-joining with the same separator gives back the input. */
  lemma {:induction false} JoinSplit(s: string, sep: string)
    ensures Join(Split(s, sep), sep) == s
  {
    if sep == "" {
      JoinExplode(s);
    } else {
      JoinSplitOn(s, sep);
    }
  }

  lemma {:induction false} JoinExplode(s: string)
    ensures Join(Explode(s), "") == s
    decreases |s|
  {
    if |s| > 1 {
      assert Explode(s) == [[s[0]]] + Explode(s[1..]);
      JoinCons([s[0]], Explode(s[1..]), "");
      JoinExplode(s[1..]);
      assert [s[0]] + s[1..] == s;
    } else if |s| == 1 {
      assert Explode(s) == [[s[0]]];
      assert [s[0]] == s;
    }
  }

  lemma {:induction false} JoinSplitOn(s: string, sep: string)
    requires sep != ""
    ensures Join(SplitOn(s, sep), sep) == s
    decreases |s|
  {
    var i := Index(s, sep);
    if i >= 0 {
      var rest := s[i + |sep|..];
      JoinSplitOn(rest, sep);
      JoinCons(s[..i], SplitOn(rest, sep), sep);
      assert s[..i] + sep + rest == s by {
        assert s[i..i + |sep|] == sep;
        assert s == s[..i] + s[i..i + |sep|] + s[i + |sep|..];
      }
    }
  }

  /**
   `strings.Split` gives one more piece than `strings.Count` with a non-empty separator, and one
   fewer with the empty separator, which counts the code points plus one.
   */
  lemma {:induction false} SplitCount(s: string, sep: string)
    ensures sep != "" ==> |Split(s, sep)| == Count(s, sep) + 1
    ensures sep == "" ==> |Split(s, sep)| == Count(s, sep) - 1
    decreases |s|
  {
    if sep != "" {
      var i := Index(s, sep);
      if i >= 0 {
        var rest := s[i + |sep|..];
        SplitCount(rest, sep);
        assert Split(s, sep) == [s[..i]] + Split(rest, sep);
        assert Count(s, sep) == 1 + Count(rest, sep);
      } else {
        assert Split(s, sep) == [s];
      }
    }
  }

  /** No piece of `strings.Split` contains the (non-empty) separator. */
  lemma {:induction false} SplitPiecesAvoidSep(s: string, sep: string)
    requires sep != ""
    ensures forall k, j :: 0 <= k < |Split(s, sep)| ==> !OccursAt(Split(s, sep)[k], sep, j)
    decreases |s|
  {
    var i := Index(s, sep);
    if i >= 0 {
      var rest := s[i + |sep|..];
      SplitPiecesAvoidSep(rest, sep);
      NoEarlierOccurrence(s, sep, i);
      assert Split(s, sep) == [s[..i]] + Split(rest, sep);
    }
  }

  /** Splitting `s == a + [c] + b` on `[c]`, where `a` holds no `c`, cuts exactly after `a`. */
  lemma SplitAfterFirst(s: string, a: string, c: char, b: string)
    requires s == a + [c] + b
    requires c !in a
    ensures Split(s, [c]) == [a] + Split(b, [c])
  {
    IndexChar(s, c);
    var i := Index(s, [c]);
    assert s[|a|] == c;
    assert i == |a|;
    assert s[..|a|] == a;
    assert s[|a| + 1..] == b;
  }

  /** A string without the separator character splits into itself alone. */
  lemma SplitWithoutSep(a: string, c: char)
    requires c !in a
    ensures Split(a, [c]) == [a]
  {
    IndexChar(a, c);
  }

  /** Joining pieces free of `c` with `[c]` and splitting again gives back the pieces. */
  lemma {:induction false} SplitJoinChar(parts: seq<string>, c: char)
    requires |parts| >= 1
    requires forall k :: 0 <= k < |parts| ==> c !in parts[k]
    ensures Split(Join(parts, [c]), [c]) == parts
    decreases |parts|
  {
    if |parts| == 1 {
      SplitWithoutSep(parts[0], c);
    } else {
      SplitJoinChar(parts[1..], c);
      SplitAfterFirst(Join(parts, [c]), parts[0], c, Join(parts[1..], [c]));
      assert parts == [parts[0]] + parts[1..];
    }
  }

  /** `strings.Repeat` of a one-character string. */
  function Repeat(c: char, n: nat): (r: string)
    ensures |r| == n
    ensures forall i :: 0 <= i < n ==> r[i] == c
  {
    if n == 0 then "" else [c] + Repeat(c, n - 1)
  }

  /** `unicode.IsSpace`: the Unicode White_Space characters. */
  predicate IsSpace(c: char) {
    c == ' ' || ('\t' <= c <= '\r') || c == '\U{85}' || c == '\U{A0}' || c == '\U{1680}'
    || ('\U{2000}' <= c <= '\U{200A}') || c == '\U{2028}' || c == '\U{2029}' || c == '\U{202F}'
    || c == '\U{205F}' || c == '\U{3000}'
  }

  /** Every character of `s` is white space (the empty string included). */
  predicate IsBlank(s: string) {
    forall i :: 0 <= i < |s| ==> IsSpace(s[i])
  }

  function TrimLeftSpace(s: string): (r: string)
    ensures HasSuffix(s, r)
    ensures IsBlank(s[..|s| - |r|])
    ensures |r| > 0 ==> !IsSpace(r[0])
  {
    if |s| > 0 && IsSpace(s[0]) then TrimLeftSpace(s[1..]) else s
  }

  function TrimRightSpace(s: string): (r: string)
    ensures HasPrefix(s, r)
    ensures IsBlank(s[|r|..])
    ensures |r| > 0 ==> !IsSpace(r[|r| - 1])
  {
    if |s| > 0 && IsSpace(s[|s| - 1]) then TrimRightSpace(s[..|s| - 1]) else s
  }

  /** `strings.TrimSpace` */
  function TrimSpace(s: string): string {
    TrimRightSpace(TrimLeftSpace(s))
  }

  /** `strings.TrimSpace` returns "" exactly for blank strings. */
  lemma TrimSpaceEmpty(s: string)
    ensures TrimSpace(s) == "" <==> IsBlank(s)
  {
    var l := TrimLeftSpace(s);
    if TrimSpace(s) == "" {
      assert IsBlank(l);
      assert s == s[..|s| - |l|] + l;
      forall i | 0 <= i < |s| ensures IsSpace(s[i]) {
        assert s[i] == s[..|s| - |l|][i];
      }
    }
  }

  /** `strings.TrimRight(s, cutset)` */
  function TrimRightChars(s: string, cutset: string): (r: string)
    ensures HasPrefix(s, r)
    ensures forall i :: |r| <= i < |s| ==> s[i] in cutset
    ensures |r| > 0 ==> r[|r| - 1] !in cutset
  {
    if |s| > 0 && s[|s| - 1] in cutset then TrimRightChars(s[..|s| - 1], cutset) else s
  }

  /** `strings.TrimLeft(s, cutset)` */
  function TrimLeftChars(s: string, cutset: string): (r: string)
    ensures HasSuffix(s, r)
    ensures forall i :: 0 <= i < |s| - |r| ==> s[i] in cutset
    ensures |r| > 0 ==> r[0] !in cutset
  {
    if |s| > 0 && s[0] in cutset then TrimLeftChars(s[1..], cutset) else s
  }

  /** `strings.Trim(s, cutset)` */
  function TrimChars(s: string, cutset: string): string {
    TrimRightChars(TrimLeftChars(s, cutset), cutset)
  }

  /** `strings.ReplaceAll(s, old, new)` for one-character `old` and `new`. */
  function ReplaceChar(s: string, from: char, repl: char): (r: string)
    ensures |r| == |s|
    ensures forall i :: 0 <= i < |s| ==> r[i] == (if s[i] == from then repl else s[i])
  {
    if s == "" then "" else [if s[0] == from then repl else s[0]] + ReplaceChar(s[1..], from, repl)
  }

  /** Number of bytes UTF-8 uses for `c`. */
  function Utf8Width(c: char): nat {
    if c as int < 0x80 then 1 else if c as int < 0x800 then 2 else if c as int < 0x10000 then 3 else 4
  }

  /** Go's `len` of a string: its UTF-8 byte length. */
  function ByteLen(s: string): (n: nat)
    ensures n >= |s|
  {
    if s == "" then 0 else Utf8Width(s[0]) + ByteLen(s[1..])
  }

  lemma {:induction false} ByteLenAppend(a: string, b: string)
    ensures ByteLen(a + b) == ByteLen(a) + ByteLen(b)
    decreases |a|
  {
    if a != "" {
      assert (a + b)[0] == a[0];
      assert (a + b)[1..] == a[1..] + b;
      ByteLenAppend(a[1..], b);
    } else {
      assert a + b == b;
    }
  }

  predicate IsDigit(c: char) {
    '0' <= c <= '9'
  }

  /** A non-empty run of decimal digits. */
  predicate IsNumeral(s: string) {
    |s| > 0 && forall i :: 0 <= i < |s| ==> IsDigit(s[i])
  }

  function DigitChar(d: nat): (c: char)
    requires d < 10
    ensures IsDigit(c)
  {
    "0123456789"[d]
  }

  /** `fmt.Sprintf("%v", n)` of an unsigned integer: its decimal numeral. */
  function NatToString(n: nat): (r: string)
    ensures IsNumeral(r)
    ensures r[0] == '0' ==> n == 0
  {
    if n < 10 then [DigitChar(n)] else NatToString(n / 10) + [DigitChar(n % 10)]
  }

  function HexDigit(d: nat): char
    requires d < 16
  {
    "0123456789abcdef"[d]
  }

  /** `strconv.Quote`'s escape of one character (ASCII escapes; see `Quote`). */
  function EscapeChar(c: char): string {
    if c == '"' then "\\\""
    else if c == '\\' then "\\\\"
    else if c == '\U{7}' then "\\a"
    else if c == '\U{8}' then "\\b"
    else if c == '\U{C}' then "\\f"
    else if c == '\n' then "\\n"
    else if c == '\r' then "\\r"
    else if c == '\t' then "\\t"
    else if c == '\U{B}' then "\\v"
    else if c as int < 0x20 || c as int == 0x7F then
      ['\\', 'x', HexDigit(c as int / 16), HexDigit(c as int % 16)]
    else [c]
  }

  function EscapeBody(s: string): string {
    if s == "" then "" else EscapeChar(s[0]) + EscapeBody(s[1..])
  }

  /** `fmt.Sprintf("%q", s)` as `strconv.Quote` renders ASCII input. */
  function Quote(s: string): string {
    "\"" + EscapeBody(s) + "\""
  }

  function HexValue(c: char): (r: Option<nat>)
    ensures r.Some? ==> r.value < 16
  {
    if '0' <= c <= '9' then Some(c as int - '0' as int)
    else if 'a' <= c <= 'f' then Some(c as int - 'a' as int + 10)
    else None
  }

  function SimpleUnescape(c: char): Option<char> {
    if c == '"' then Some('"')
    else if c == '\\' then Some('\\')
    else if c == 'a' then Some('\U{7}')
    else if c == 'b' then Some('\U{8}')
    else if c == 'f' then Some('\U{C}')
    else if c == 'n' then Some('\n')
    else if c == 'r' then Some('\r')
    else if c == 't' then Some('\t')
    else if c == 'v' then Some('\U{B}')
    else None
  }

  function Prepend(c: char, r: Option<string>): Option<string> {
    if r.Some? then Some([c] + r.value) else None
  }

  /** Reads back the body of a quoted string, undoing `EscapeBody`. */
  function UnescapeBody(t: string): Option<string>
    decreases |t|
  {
    if t == "" then Some("")
    else if t[0] == '"' then None
    else if t[0] != '\\' then Prepend(t[0], UnescapeBody(t[1..]))
    else if |t| >= 2 && SimpleUnescape(t[1]).Some? then
      Prepend(SimpleUnescape(t[1]).value, UnescapeBody(t[2..]))
    else if |t| >= 4 && t[1] == 'x' && HexValue(t[2]).Some? && HexValue(t[3]).Some? then
      Prepend((HexValue(t[2]).value * 16 + HexValue(t[3]).value) as char, UnescapeBody(t[4..]))
    else None
  }

  /** `strconv.Unquote` for the strings `Quote` produces. */
  function Unquote(q: string): Option<string> {
    if |q| >= 2 && q[0] == '"' && q[|q| - 1] == '"' then UnescapeBody(q[1..|q| - 1]) else None
  }

  lemma UnescapeChar(c: char, rest: string)
    ensures UnescapeBody(EscapeChar(c) + rest) == Prepend(c, UnescapeBody(rest))
  {
    var t := EscapeChar(c) + rest;
    if |EscapeChar(c)| == 1 {
      assert t[1..] == rest;
    } else if |EscapeChar(c)| == 2 {
      assert t[2..] == rest;
    } else {
      var n := c as int;
      HexRoundTrip(n);
      assert t[4..] == rest;
    }
  }

  /** A control character's two hex digits read back as the character's code. */
  lemma HexRoundTrip(n: nat)
    requires n < 256
    ensures HexValue(HexDigit(n / 16)) == Some(n / 16)
    ensures HexValue(HexDigit(n % 16)) == Some(n % 16)
    ensures n / 16 * 16 + n % 16 == n
  {
    HexDigitValue(n / 16);
    HexDigitValue(n % 16);
  }

  lemma HexDigitValue(d: nat)
    requires d < 16
    ensures HexValue(HexDigit(d)) == Some(d)
  {
  }

  /** `Unquote` inverts `Quote`. */
  lemma {:induction false} UnquoteQuote(s: string)
    ensures Unquote(Quote(s)) == Some(s)
  {
    assert Quote(s)[1..|Quote(s)| - 1] == EscapeBody(s);
    UnescapeEscape(s);
  }

  lemma {:induction false} UnescapeEscape(s: string)
    ensures UnescapeBody(EscapeBody(s)) == Some(s)
    decreases |s|
  {
    if s != "" {
      UnescapeEscape(s[1..]);
      UnescapeChar(s[0], EscapeBody(s[1..]));
      assert [s[0]] + s[1..] == s;
    }
  }
}

=== FILE: plugin_tags.dfy ===
/**
 The `plugin` package carries its own copy of the tag helpers. Each member here is that copy; its
 contract states the copy's behaviour and its body shows it agrees with `Tag`.
 */
module PluginTags {
  import opened Results
  import opened GoStrings
  import Tag

  /** `stripHeadPrefix` */
  function StripHeadPrefix(ref: string): (r: string)
    ensures HasPrefix(ref, Tag.HeadRefPrefix) ==> Tag.HeadRefPrefix + r == ref
    ensures !HasPrefix(ref, Tag.HeadRefPrefix) ==> r == ref
  {
    Tag.StripHeadPrefix(ref)
  }

  /** `stripTagPrefix`: `refs/tags/` first, then one `v`. */
  function StripTagPrefix(ref: string): (r: string)
    ensures HasPrefix(ref, Tag.TagRefPrefix + "v") ==> Tag.TagRefPrefix + "v" + r == ref
    ensures HasPrefix(ref, Tag.TagRefPrefix) && !HasPrefix(ref, Tag.TagRefPrefix + "v") ==>
      Tag.TagRefPrefix + r == ref
    ensures !HasPrefix(ref, Tag.TagRefPrefix) && HasPrefix(ref, "v") ==> "v" + r == ref
    ensures !HasPrefix(ref, Tag.TagRefPrefix) && !HasPrefix(ref, "v") ==> r == ref
  {
    Tag.StripTagPrefix(ref)
  }

  /** `IsTaggable` */
  predicate IsTaggable(ref: string, defaultBranch: string) {
    if HasPrefix(ref, Tag.TagRefPrefix) then true
    else StripHeadPrefix(ref) == defaultBranch
  }

  /** The copy accepts exactly the refs the `tag` package accepts. */
  lemma IsTaggableIff(ref: string, defaultBranch: string)
    ensures IsTaggable(ref, defaultBranch) <==>
      HasPrefix(ref, Tag.TagRefPrefix)
      || ref == Tag.HeadRefPrefix + defaultBranch
      || (ref == defaultBranch && !HasPrefix(ref, Tag.HeadRefPrefix))
    ensures IsTaggable(ref, defaultBranch) == Tag.IsTaggable(ref, defaultBranch)
  {
    Tag.IsTaggableIff(ref, defaultBranch);
  }

  /** `SemverTags`: one, two or three tags by the version's shape, `latest` otherwise. */
  function SemverTags(ref: string, strict: bool, parse: Tag.Parser): (r: Tag.TagList)
    ensures !HasPrefix(ref, Tag.TagRefPrefix) ==> r == Tag.TagList([Tag.Latest], None)
    ensures HasPrefix(ref, Tag.TagRefPrefix) && parse(StripTagPrefix(ref), strict).Err? ==>
      r == Tag.TagList([Tag.Latest], Some(parse(StripTagPrefix(ref), strict).error))
    ensures HasPrefix(ref, Tag.TagRefPrefix) && parse(StripTagPrefix(ref), strict).Ok? ==>
      var v := parse(StripTagPrefix(ref), strict).value;
      && r.err.None?
      && Tag.Latest !in r.tags
      && (v.prerelease != "" ==> r.tags == [Tag.Canonical(v)])
      && (v.prerelease == "" && v.major == 0 ==> |r.tags| == 2)
      && (v.prerelease == "" && v.major > 0 ==> |r.tags| == 3)
      && (v.prerelease == "" ==> r.tags[|r.tags| - 1] == Tag.Triple(v))
  {
    var r := Tag.SemverTags(ref, strict, parse);
    if HasPrefix(ref, Tag.TagRefPrefix) && parse(StripTagPrefix(ref), strict).Ok? then
      Tag.SemverTagsOfVersion(ref, strict, parse, parse(StripTagPrefix(ref), strict).value);
      r
    else
      r
  }

  /** `SemverTagSuffix`: `latest` becomes the suffix, every other tag gets `-suffix`. */
  function SemverTagSuffix(ref: string, suffix: string, strict: bool, parse: Tag.Parser): (r: Result<seq<string>, string>)
    ensures SemverTags(ref, strict, parse).err.Some? ==> r == Err(SemverTags(ref, strict, parse).err.value)
    ensures SemverTags(ref, strict, parse).err.None? && suffix == "" ==>
      r == Ok(SemverTags(ref, strict, parse).tags)
    ensures SemverTags(ref, strict, parse).err.None? && suffix != "" ==>
      var tags := SemverTags(ref, strict, parse).tags;
      && r.Ok?
      && |r.value| == |tags|
      && forall i :: 0 <= i < |tags| ==>
           r.value[i] == if tags[i] == Tag.Latest then suffix else tags[i] + "-" + suffix
  {
    Tag.SemverTagSuffix(ref, suffix, strict, parse)
  }
}

=== FILE: results.dfy ===
/** Failure-carrying values shared by the modules of this project. */
module Results {

  /** A value that may be absent: Go's `(v, ok)` pairs and nil errors. */
  datatype Option<+T> = None | Some(value: T)

  /** Either a computed value or the error a Go function returns beside it. */
  datatype Result<+T, +E> = Ok(value: T) | Err(error: E)
}

=== FILE: slices.dfy ===
/** Generic slice helpers: first-occurrence deduplication and order-preserving set difference. */
module Slices {

  /** No element occurs twice. */
  predicate NoDuplicates<T(==,!new)>(s: seq<T>) {
    forall i, j :: 0 <= i < j < |s| ==> s[i] != s[j]
  }

  /** `r` is `s` with some elements deleted (order kept). Matched greedily from the right. */
  predicate IsSubsequence<T(==,!new)>(r: seq<T>, s: seq<T>)
    decreases |s|
  {
    if |r| == 0 then true
    else if |s| == 0 then false
    else if r[|r| - 1] == s[|s| - 1] then IsSubsequence(r[..|r| - 1], s[..|s| - 1])
    else IsSubsequence(r, s[..|s| - 1])
  }

  /** The position of the first occurrence of `x` in `s`. */
  function FirstIndex<T(==,!new)>(s: seq<T>, x: T): (k: nat)
    requires x in s
    ensures k < |s| && s[k] == x && x !in s[..k]
  {
    if s[0] == x then 0 else 1 + FirstIndex(s[1..], x)
  }

  lemma {:induction false} SubsequenceDropLast<T(!new)>(r: seq<T>, s: seq<T>)
    requires |r| > 0 && IsSubsequence(r, s)
    ensures IsSubsequence(r[..|r| - 1], s)
    decreases |s|, 0
  {
    var r' := r[..|r| - 1];
    var s' := s[..|s| - 1];
    if |r'| > 0 {
      if r[|r| - 1] == s[|s| - 1] {
        SubsequenceExtend(r', s', s[|s| - 1]);
        assert s' + [s[|s| - 1]] == s;
      } else {
        SubsequenceDropLast(r, s');
        SubsequenceExtend(r', s', s[|s| - 1]);
        assert s' + [s[|s| - 1]] == s;
      }
    }
  }

  lemma {:induction false} SubsequenceExtend<T(!new)>(r: seq<T>, s: seq<T>, x: T)
    requires IsSubsequence(r, s)
    ensures IsSubsequence(r, s + [x])
    decreases |s|, 1
  {
    if |r| > 0 {
      assert (s + [x])[..|s|] == s;
      if r[|r| - 1] == x {
        SubsequenceDropLast(r, s);
      }
    }
  }

  lemma {:induction false} SubsequenceTransitive<T(!new)>(a: seq<T>, b: seq<T>, c: seq<T>)
    requires IsSubsequence(a, b) && IsSubsequence(b, c)
    ensures IsSubsequence(a, c)
    decreases |c|
  {
    if |a| > 0 && |b| > 0 {
      var c' := c[..|c| - 1];
      var b' := b[..|b| - 1];
      assert c' + [c[|c| - 1]] == c;
      if b[|b| - 1] == c[|c| - 1] {
        if a[|a| - 1] == b[|b| - 1] {
          SubsequenceTransitive(a[..|a| - 1], b', c');
        } else {
          SubsequenceTransitive(a, b', c');
          SubsequenceExtend(a, c', c[|c| - 1]);
        }
      } else {
        SubsequenceTransitive(a, b, c');
        SubsequenceExtend(a, c', c[|c| - 1]);
      }
    }
  }

  lemma {:induction false} SubsequenceReflexive<T(!new)>(s: seq<T>)
    ensures IsSubsequence(s, s)
    decreases |s|
  {
    if |s| > 0 {
      SubsequenceReflexive(s[..|s| - 1]);
    }
  }

  lemma {:induction false} SubsequenceAppend<T(!new)>(r: seq<T>, s: seq<T>, x: T)
    requires IsSubsequence(r, s)
    ensures IsSubsequence(r + [x], s + [x])
  {
    assert (r + [x])[..|r|] == r;
    assert (s + [x])[..|s|] == s;
  }

  lemma FirstIndexPrefix<T(!new)>(s: seq<T>, x: T, y: T)
    requires y in s
    ensures FirstIndex(s + [x], y) == FirstIndex(s, y)
  {
    var k := FirstIndex(s, y);
    assert (s + [x])[k] == y;
    assert (s + [x])[..k] == s[..k];
  }

  /**
   `Unique`: keeps the first occurrence of each element, in input order. Stated by extending a
   prefix one element at a time, as the source's loop does.
   */
  function Unique<T(==,!new)>(s: seq<T>): (r: seq<T>)
    ensures NoDuplicates(r)
    ensures forall x :: x in r <==> x in s
    ensures |r| <= |s|
    decreases |s|
  {
    if |s| == 0 then []
    else
      var u := Unique(s[..|s| - 1]);
      assert s == s[..|s| - 1] + [s[|s| - 1]];
      if s[|s| - 1] in u then u else u + [s[|s| - 1]]
  }

  /** `Unique`'s output is a subsequence of its input. */
  lemma {:induction false} UniqueIsSubsequence<T(!new)>(s: seq<T>)
    ensures IsSubsequence(Unique(s), s)
    decreases |s|
  {
    if |s| > 0 {
      var prefix, x := s[..|s| - 1], s[|s| - 1];
      UniqueIsSubsequence(prefix);
      assert s == prefix + [x];
      if x in Unique(prefix) {
        SubsequenceExtend(Unique(prefix), prefix, x);
      } else {
        SubsequenceAppend(Unique(prefix), prefix, x);
      }
    }
  }

  /** `Unique` lists elements in the order of their first occurrences in the input. */
  lemma {:induction false} UniqueKeepsFirstOccurrenceOrder<T(!new)>(s: seq<T>)
    ensures forall i, j :: 0 <= i < j < |Unique(s)| ==> FirstIndex(s, Unique(s)[i]) < FirstIndex(s, Unique(s)[j])
    decreases |s|
  {
    if |s| > 0 {
      var prefix, x := s[..|s| - 1], s[|s| - 1];
      var u := Unique(prefix);
      UniqueKeepsFirstOccurrenceOrder(prefix);
      assert s == prefix + [x];
      forall y | y in u ensures FirstIndex(s, y) == FirstIndex(prefix, y) {
        FirstIndexPrefix(prefix, x, y);
      }
      if x !in u {
        assert FirstIndex(s, x) == |s| - 1;
        assert forall i :: 0 <= i < |u| ==> FirstIndex(s, u[i]) < |s| - 1;
      }
    }
  }

  /** The elements of `a` that are not in `b`, in order, duplicates kept. */
  function Without<T(==,!new)>(a: seq<T>, b: seq<T>): (r: seq<T>)
    ensures forall x :: x in r <==> x in a && x !in b
    ensures forall x :: multiset(r)[x] == if x in b then 0 else multiset(a)[x]
    ensures IsSubsequence(r, a)
    decreases |a|
  {
    if |a| == 0 then []
    else
      var prefix := a[..|a| - 1];
      var x := a[|a| - 1];
      var w := Without(prefix, b);
      assert a == prefix + [x];
      if x in b then
        SubsequenceExtend(w, prefix, x);
        w
      else
        SubsequenceAppend(w, prefix, x);
        w + [x]
  }

  /** One step of the source's outer loop. */
  lemma WithoutSnoc<T(!new)>(s: seq<T>, i: nat, b: seq<T>)
    requires i < |s|
    ensures Without(s[..i + 1], b) == if s[i] in b then Without(s[..i], b) else Without(s[..i], b) + [s[i]]
  {
    assert s[..i + 1][..i] == s[..i];
  }

  lemma {:induction false} WithoutKeepsNoDuplicates<T(!new)>(a: seq<T>, b: seq<T>)
    requires NoDuplicates(a)
    ensures NoDuplicates(Without(a, b))
    decreases |a|
  {
    if |a| > 0 {
      var prefix := a[..|a| - 1];
      WithoutKeepsNoDuplicates(prefix, b);
      assert a == prefix + [a[|a| - 1]];
      assert a[|a| - 1] !in prefix;
    }
  }

  lemma SubsequenceLength<T(!new)>(r: seq<T>, s: seq<T>)
    requires IsSubsequence(r, s)
    ensures |r| <= |s|
    decreases |s|
  {
    if |r| > 0 {
      if r[|r| - 1] == s[|s| - 1] {
        SubsequenceLength(r[..|r| - 1], s[..|s| - 1]);
      } else {
        SubsequenceLength(r, s[..|s| - 1]);
      }
    }
  }

  lemma UniqueWithoutFacts<T(!new)>(a: seq<T>, b: seq<T>)
    ensures NoDuplicates(Without(Unique(a), b))
    ensures IsSubsequence(Without(Unique(a), b), a)
  {
    WithoutKeepsNoDuplicates(Unique(a), b);
    UniqueIsSubsequence(a);
    SubsequenceTransitive(Without(Unique(a), b), Unique(a), a);
  }

  /** `SetDifference(a, b, unique)` */
  function SetDifference<T(==,!new)>(a: seq<T>, b: seq<T>, unique: bool): (r: seq<T>)
    ensures forall x :: x in r <==> x in a && x !in b
    ensures IsSubsequence(r, a)
    ensures unique ==> NoDuplicates(r) && IsSubsequence(r, Unique(a))
    ensures !unique ==> forall x :: multiset(r)[x] == if x in b then 0 else multiset(a)[x]
    ensures |r| <= |a|
  {
    UniqueWithoutFacts(a, b);
    var r := Without(if unique then Unique(a) else a, b);
    SubsequenceLength(r, a);
    r
  }

  lemma SetDifferenceIsWithout<T(!new)>(a: seq<T>, b: seq<T>, unique: bool)
    ensures SetDifference(a, b, unique) == Without(if unique then Unique(a) else a, b)
  {
  }

  /** Removing nothing without deduplication is the identity. */
  lemma SetDifferenceEmpty<T(!new)>(a: seq<T>)
    ensures SetDifference(a, [], false) == a
  {
    SetDifferenceIsWithout(a, [], false);
    WithoutNothing(a, []);
  }

  lemma {:induction false} WithoutNothing<T(!new)>(a: seq<T>, b: seq<T>)
    requires |b| == 0
    ensures Without(a, b) == a
    decreases |a|
  {
    if |a| > 0 {
      var i := |a| - 1;
      var prefix := a[..i];
      assert a == prefix + [a[i]];
      assert a[..i + 1] == a;
      WithoutNothing(prefix, b);
      WithoutSnoc(a, i, b);
    }
  }

  /** `Unique([1, 2, 3, 2]) == [1, 2, 3]` */
  lemma UniqueExample()
    ensures Unique([1, 2, 3, 2]) == [1, 2, 3]
  {
    assert [1, 2, 3, 2][..3] == [1, 2, 3];
    assert [1, 2, 3][..2] == [1, 2];
    assert [1, 2][..1] == [1];
    assert [1][..0] == [];
  }

  /** `SetDifference(["a", "a", "b"], ["b"], true) == ["a"]` */
  lemma SetDifferenceUniqueExample()
    ensures SetDifference(["a", "a", "b"], ["b"], true) == ["a"]
  {
    var a := ["a", "a", "b"];
    UniqueOfRepeat(a);
    SetDifferenceIsWithout(a, ["b"], true);
    WithoutOfPair(["a", "b"]);
  }

  lemma UniqueOfRepeat(a: seq<string>)
    requires a == ["a", "a", "b"]
    ensures Unique(a) == ["a", "b"]
  {
    assert Unique(a[..1]) == ["a"] by {
      assert a[..0] == [];
      UniqueSnoc(a, 0);
    }
    assert Unique(a[..2]) == ["a"] by {
      UniqueSnoc(a, 1);
    }
    assert a[..3] == a;
    UniqueSnoc(a, 2);
  }

  /** One step of the source's loop in `Unique`. */
  lemma UniqueSnoc<T(!new)>(s: seq<T>, i: nat)
    requires i < |s|
    ensures Unique(s[..i + 1]) == if s[i] in Unique(s[..i]) then Unique(s[..i]) else Unique(s[..i]) + [s[i]]
  {
    assert s[..i + 1][..i] == s[..i];
  }

  lemma WithoutOfPair(u: seq<string>)
    requires u == ["a", "b"]
    ensures Without(u, ["b"]) == ["a"]
  {
    assert u[..0] == [];
    WithoutSnoc(u, 0, ["b"]);
    WithoutSnoc(u, 1, ["b"]);
    assert u[..2] == u;
  }

  /** The source's loop: a `seen` set and an output slice built left to right. */
  method ComputeUnique<T(==,!new)>(s: seq<T>) returns (result: seq<T>)
    ensures result == Unique(s)
  {
    var seen: set<T> := {};
    result := [];
    for i := 0 to |s|
      invariant result == Unique(s[..i])
      invariant forall x :: x in seen <==> x in s[..i]
    {
      var v := s[i];
      assert s[..i + 1] == s[..i] + [v];
      assert s[..i + 1][..i] == s[..i];
      if v !in seen {
        seen := seen + {v};
        result := result + [v];
      }
    }
    assert s[..|s|] == s;
  }

  /** The source's inner loop: a linear search of `b` for `x`. */
  method Find<T(==)>(b: seq<T>, x: T) returns (found: bool)
    ensures found <==> x in b
  {
    found := false;
    for j := 0 to |b|
      invariant found <==> x in b[..j]
    {
      if x == b[j] {
        found := true;
        break;
      }
      assert b[..j + 1] == b[..j] + [b[j]];
    }
    assert !found ==> b[..|b|] == b;
  }

  /** The source's outer loop: the elements not found in `b`, appended in order. */
  method ComputeSetDifference<T(==,!new)>(a: seq<T>, b: seq<T>, unique: bool) returns (result: seq<T>)
    ensures result == SetDifference(a, b, unique)
  {
    var items := a;
    if unique {
      items := ComputeUnique(a);
    }
    result := [];
    for i := 0 to |items|
      invariant result == Without(items[..i], b)
    {
      var found := Find(b, items[i]);
      WithoutSnoc(items, i, b);
      if !found {
        result := result + [items[i]];
      }
    }
    assert items[..|items|] == items;
    SetDifferenceIsWithout(a, b, unique);
  }
}

=== FILE: string_order.dfy ===
/**
 Go's string ordering and `sort.Strings`. Go compares strings byte by byte; because UTF-8
 preserves code point order, that is the lexicographic order on code point sequences below.
 */
module StringOrder {

  /** `a <= b` for Go strings. */
  predicate LessEq(a: string, b: string)
    decreases |a|
  {
    if |a| == 0 then true
    else if |b| == 0 then false
    else if a[0] != b[0] then a[0] < b[0]
    else LessEq(a[1..], b[1..])
  }

  lemma {:induction false} LessEqReflexive(a: string)
    ensures LessEq(a, a)
    decreases |a|
  {
    if |a| > 0 {
      LessEqReflexive(a[1..]);
    }
  }

  lemma {:induction false} LessEqTotal(a: string, b: string)
    ensures LessEq(a, b) || LessEq(b, a)
    decreases |a|
  {
    if |a| > 0 && |b| > 0 && a[0] == b[0] {
      LessEqTotal(a[1..], b[1..]);
    }
  }

  lemma {:induction false} LessEqAntisymmetric(a: string, b: string)
    requires LessEq(a, b) && LessEq(b, a)
    ensures a == b
    decreases |a|
  {
    if |a| > 0 && |b| > 0 {
      LessEqAntisymmetric(a[1..], b[1..]);
      assert a == [a[0]] + a[1..];
      assert b == [b[0]] + b[1..];
    }
  }

  lemma {:induction false} LessEqTransitive(a: string, b: string, c: string)
    requires LessEq(a, b) && LessEq(b, c)
    ensures LessEq(a, c)
    decreases |a|
  {
    if |a| > 0 && |b| > 0 && |c| > 0 && a[0] == b[0] && b[0] == c[0] {
      LessEqTransitive(a[1..], b[1..], c[1..]);
    }
  }

  /** Every pair of positions is in order. */
  predicate Sorted(s: seq<string>) {
    forall i, j :: 0 <= i < j < |s| ==> LessEq(s[i], s[j])
  }

  /** The first element of a sorted sequence is below every element. */
  lemma SortedHeadIsLeast(s: seq<string>, x: string)
    requires Sorted(s) && x in multiset(s)
    ensures LessEq(s[0], x)
  {
    var j :| 0 <= j < |s| && s[j] == x;
    if j == 0 {
      LessEqReflexive(x);
    }
  }

  /** Putting an element below all of a sorted sequence in front keeps it sorted. */
  lemma SortedCons(x: string, s: seq<string>)
    requires Sorted(s)
    requires forall y :: y in multiset(s) ==> LessEq(x, y)
    ensures Sorted([x] + s)
  {
    forall j | 0 <= j < |s| ensures LessEq(x, s[j]) {
      assert s[j] in multiset(s);
    }
  }

  lemma SortedTail(s: seq<string>)
    requires Sorted(s) && |s| > 0
    ensures Sorted(s[1..])
  {
  }

  lemma TailMultiset(s: seq<string>)
    requires |s| > 0
    ensures multiset(s[1..]) == multiset(s) - multiset{s[0]}
  {
    assert s == [s[0]] + s[1..];
  }

  /** Below the head of a sorted sequence is below all of it. */
  lemma BelowHead(x: string, s: seq<string>)
    requires Sorted(s) && |s| > 0 && LessEq(x, s[0])
    ensures forall y :: y in multiset(s) ==> LessEq(x, y)
  {
    forall y | y in multiset(s) ensures LessEq(x, y) {
      SortedHeadIsLeast(s, y);
      LessEqTransitive(x, s[0], y);
    }
  }

  /** `s[0]`, not below `x`, is below everything inserting `x` into the sorted tail yields. */
  lemma HeadBelowInserted(x: string, s: seq<string>, rest: seq<string>)
    requires Sorted(s) && |s| > 0 && !LessEq(x, s[0])
    requires multiset(rest) == multiset(s[1..]) + multiset{x}
    ensures forall y :: y in multiset(rest) ==> LessEq(s[0], y)
  {
    forall y | y in multiset(rest) ensures LessEq(s[0], y) {
      if y == x {
        LessEqTotal(x, s[0]);
      } else {
        assert y in multiset(s[1..]);
        TailMultiset(s);
        SortedHeadIsLeast(s, y);
      }
    }
  }

  function Insert(x: string, s: seq<string>): (r: seq<string>)
    requires Sorted(s)
    ensures Sorted(r)
    ensures multiset(r) == multiset(s) + multiset{x}
  {
    if |s| == 0 then [x]
    else if LessEq(x, s[0]) then
      BelowHead(x, s);
      SortedCons(x, s);
      [x] + s
    else
      SortedTail(s);
      var rest := Insert(x, s[1..]);
      assert s == [s[0]] + s[1..];
      HeadBelowInserted(x, s, rest);
      SortedCons(s[0], rest);
      [s[0]] + rest
  }

  /** `sort.Strings`: the sorted permutation of `s`. */
  function Sort(s: seq<string>): (r: seq<string>)
    ensures Sorted(r)
    ensures multiset(r) == multiset(s)
  {
    if |s| == 0 then []
    else
      assert s == [s[0]] + s[1..];
      Insert(s[0], Sort(s[1..]))
  }

  /** Two sorted permutations of each other start with the same element. */
  lemma SameHead(a: seq<string>, b: seq<string>)
    requires Sorted(a) && Sorted(b) && |a| > 0
    requires multiset(a) == multiset(b)
    ensures |b| > 0 && a[0] == b[0]
  {
    assert a[0] in multiset(a);
    assert |b| > 0;
    SortedHeadIsLeast(b, a[0]);
    assert b[0] in multiset(b);
    SortedHeadIsLeast(a, b[0]);
    LessEqAntisymmetric(a[0], b[0]);
  }

  lemma SameTail(a: seq<string>, b: seq<string>)
    requires |a| > 0 && |b| > 0 && a[0] == b[0]
    requires multiset(a) == multiset(b)
    ensures multiset(a[1..]) == multiset(b[1..])
  {
    TailMultiset(a);
    TailMultiset(b);
  }

  /**
   A sorted permutation is unique, so `Sort` gives the same sequence as whatever algorithm
   `sort.Strings` uses.
   */
  lemma {:induction false} SortedPermutationUnique(a: seq<string>, b: seq<string>)
    requires Sorted(a) && Sorted(b)
    requires multiset(a) == multiset(b)
    ensures a == b
    decreases |a|
  {
    if |a| > 0 {
      SameHead(a, b);
      SameTail(a, b);
      SortedTail(a);
      SortedTail(b);
      SortedPermutationUnique(a[1..], b[1..]);
      assert a == [a[0]] + a[1..];
      assert b == [b[0]] + b[1..];
    }
  }
}

=== FILE: string_slice_flag.dfy ===
/**
 The string-slice flag value: a delimiter-separated list in which a delimiter preceded by
 the escape string does not split. The Go value holds a pointer to its destination slice;
 here the destination is the slice itself, with `None` standing for a nil pointer, and `Set`
 returns the updated value instead of writing through the pointer.
 */
module StringSliceFlag {
  import opened Results
  import opened GoStrings

  /** `StringSliceConfig` */
  datatype Config = Config(delimiter: string, escapeString: string)

  /** `StringSlice` */
  datatype StringSlice = StringSlice(destination: Option<seq<string>>, delimiter: string, escapeString: string)

  /** Number of pieces, the last one aside, that end with `escape`: the joints `Set` merges. */
  function EscapedJoints(pieces: seq<string>, escape: string): (n: nat)
    ensures |pieces| >= 1 ==> n <= |pieces| - 1
  {
    if |pieces| <= 1 then 0
    else (if HasSuffix(pieces[0], escape) then 1 else 0) + EscapedJoints(pieces[1..], escape)
  }

  /**
   The merge pass of `Set`, stated from the right: the tail is merged first, then a first
   piece that ends with `escape` loses the escape and absorbs the delimiter and the merged
   tail's head.
   */
  function MergeEscaped(pieces: seq<string>, delimiter: string, escape: string): (r: seq<string>)
    requires |pieces| >= 1
    ensures |r| == |pieces| - EscapedJoints(pieces, escape)
    ensures 1 <= |r| <= |pieces|
  {
    if |pieces| == 1 then pieces
    else
      var rest := MergeEscaped(pieces[1..], delimiter, escape);
      if HasSuffix(pieces[0], escape) then
        [pieces[0][..|pieces[0]| - |escape|] + delimiter + rest[0]] + rest[1..]
      else
        [pieces[0]] + rest
  }

  /** The list `Set` stores for the input `v`. */
  function SplitEscaped(v: string, delimiter: string, escape: string): (r: seq<string>)
    ensures v == "" ==> r == []
    ensures v != "" ==> |r| >= 1
    ensures v != "" ==> |r| <= Count(v, delimiter) + 1
  {
    if v == "" then []
    else
      var pieces := Split(v, delimiter);
      SplitCount(v, delimiter);
      MergeEscaped(pieces, delimiter, escape)
  }

  /** One step of `MergeEscaped` at position `i` of the pieces. */
  lemma MergeAt(pieces: seq<string>, i: nat, delimiter: string, escape: string)
    requires i < |pieces| - 1
    ensures var rest := MergeEscaped(pieces[i + 1..], delimiter, escape);
            MergeEscaped(pieces[i..], delimiter, escape)
            == if HasSuffix(pieces[i], escape)
               then [pieces[i][..|pieces[i]| - |escape|] + delimiter + rest[0]] + rest[1..]
               else [pieces[i]] + rest
  {
    assert pieces[i..][1..] == pieces[i + 1..];
  }

  /** The body of `Set`'s loop at index `i`. */
  function MergeStep(out: seq<string>, i: nat, delimiter: string, escape: string): seq<string>
    requires i < |out| - 1
  {
    if HasSuffix(out[i], escape) then
      out[..i] + [out[i][..|out[i]| - |escape|] + delimiter + out[i + 1]] + out[i + 2..]
    else out
  }

  /** The loop body keeps `Set`'s invariant: pieces left of `i` untouched, the rest merged. */
  lemma MergeStepKeepsInvariant(pieces: seq<string>, out: seq<string>, i: nat, delimiter: string, escape: string)
    requires i < |pieces| - 1
    requires out == pieces[..i + 1] + MergeEscaped(pieces[i + 1..], delimiter, escape)
    ensures MergeStep(out, i, delimiter, escape) == pieces[..i] + MergeEscaped(pieces[i..], delimiter, escape)
  {
    var rest := MergeEscaped(pieces[i + 1..], delimiter, escape);
    MergeAt(pieces, i, delimiter, escape);
    OutParts(pieces, out, i, rest);
    if HasSuffix(out[i], escape) {
      EscapedStep(pieces[..i], out, i, rest, delimiter, escape);
    }
  }

  /** How the loop's list splits around index `i`. */
  lemma OutParts(pieces: seq<string>, out: seq<string>, i: nat, rest: seq<string>)
    requires i < |pieces| - 1 && |rest| >= 1
    requires out == pieces[..i + 1] + rest
    ensures i < |out| - 1 && out[i] == pieces[i] && out[i + 1] == rest[0]
    ensures out[..i] == pieces[..i] && out[i + 2..] == rest[1..]
    ensures out == pieces[..i] + ([pieces[i]] + rest)
  {
    assert pieces[..i + 1] == pieces[..i] + [pieces[i]];
  }

  lemma EscapedStep(left: seq<string>, out: seq<string>, i: nat, rest: seq<string>, delimiter: string, escape: string)
    requires i < |out| - 1 && HasSuffix(out[i], escape) && |rest| >= 1
    requires out[..i] == left && out[i + 1] == rest[0] && out[i + 2..] == rest[1..]
    ensures MergeStep(out, i, delimiter, escape)
         == left + ([out[i][..|out[i]| - |escape|] + delimiter + rest[0]] + rest[1..])
  {
  }

  /** `Set`: the split-and-merge loop, walking the pieces from right to left. */
  method Set(s: StringSlice, v: string) returns (updated: StringSlice)
    requires s.destination.Some?
    ensures updated == s.(destination := Some(SplitEscaped(v, s.delimiter, s.escapeString)))
  {
    if v == "" {
      return s.(destination := Some([]));
    }
    var delimiter, escape := s.delimiter, s.escapeString;
    var pieces := Split(v, delimiter);
    var out := pieces;
    var i := |out| - 2;
    assert pieces[i + 1..] == [pieces[|pieces| - 1]];
    while i >= 0
      invariant -1 <= i <= |pieces| - 2
      invariant out == pieces[..i + 1] + MergeEscaped(pieces[i + 1..], delimiter, escape)
      decreases i + 1
    {
      MergeStepKeepsInvariant(pieces, out, i, delimiter, escape);
      if HasSuffix(out[i], escape) {
        out := out[..i] + [out[i][..|out[i]| - |escape|] + delimiter + out[i + 1]] + out[i + 2..];
      }
      i := i - 1;
    }
    assert out == MergeEscaped(pieces, delimiter, escape) by {
      assert pieces[0..] == pieces;
    }
    updated := s.(destination := Some(out));
  }

  /** `Get`: the destination's current value. */
  function Get(s: StringSlice): seq<string>
    requires s.destination.Some?
  {
    s.destination.value
  }

  /**
   `String`: the plain delimiter join, without re-escaping. For a one-character delimiter that no
   element contains, splitting the text on the delimiter gives the elements back.
   */
  function String(s: StringSlice): (r: string)
    ensures s.destination.None? ==> r == ""
    ensures s.destination.Some? ==> r == Join(s.destination.value, s.delimiter)
    ensures s.destination.Some? && |s.destination.value| >= 1 && |s.delimiter| == 1
            && (forall k :: 0 <= k < |s.destination.value| ==> s.delimiter[0] !in s.destination.value[k])
            ==> Split(r, s.delimiter) == s.destination.value
  {
    if s.destination.None? || |s.destination.value| == 0 then ""
    else
      var xs, d := s.destination.value, s.delimiter;
      assert |d| == 1 && (forall k :: 0 <= k < |xs| ==> d[0] !in xs[k]) ==> Split(Join(xs, d), d) == xs by {
        if |d| == 1 && (forall k :: 0 <= k < |xs| ==> d[0] !in xs[k]) {
          assert d == [d[0]];
          SplitJoinChar(xs, d[0]);
        }
      }
      Join(xs, d)
  }

  /** `Create`: stores `v` in the destination and takes delimiter and escape from `c`. */
  function Create(v: seq<string>, c: Config): (r: StringSlice)
    ensures r.destination.Some? && Get(r) == v
    ensures r.delimiter == c.delimiter && r.escapeString == c.escapeString
  {
    StringSlice(Some(v), c.delimiter, c.escapeString)
  }

  /** `ToString`: "" for an empty list, otherwise the `%q`-quoted delimiter join. */
  function ToString(s: StringSlice, v: seq<string>): (r: string)
    ensures |v| == 0 ==> r == ""
    ensures |v| > 0 ==> Unquote(r) == Some(Join(v, s.delimiter))
  {
    if |v| == 0 then ""
    else
      UnquoteQuote(Join(v, s.delimiter));
      Quote(Join(v, s.delimiter))
  }

  /** `Set("")` stores the empty list, not a list holding one empty string. */
  lemma SetEmptyStoresEmptyList(delimiter: string, escape: string)
    ensures SplitEscaped("", delimiter, escape) == []
  {
  }

  /** With no piece ending in the escape string, merging changes nothing. */
  lemma {:induction false} MergeWithoutEscapes(pieces: seq<string>, delimiter: string, escape: string)
    requires |pieces| >= 1
    requires forall i :: 0 <= i < |pieces| - 1 ==> !HasSuffix(pieces[i], escape)
    ensures MergeEscaped(pieces, delimiter, escape) == pieces
    decreases |pieces|
  {
    if |pieces| > 1 {
      MergeWithoutEscapes(pieces[1..], delimiter, escape);
      assert pieces == [pieces[0]] + pieces[1..];
    }
  }

  /**
   If no piece of the plain split ends in the escape string, `Set` is the plain split, and
   joining its result with the delimiter gives back the input.
   */
  lemma SetWithoutEscapesIsSplit(v: string, delimiter: string, escape: string)
    requires v != ""
    requires forall i :: 0 <= i < |Split(v, delimiter)| - 1 ==> !HasSuffix(Split(v, delimiter)[i], escape)
    ensures SplitEscaped(v, delimiter, escape) == Split(v, delimiter)
    ensures Join(SplitEscaped(v, delimiter, escape), delimiter) == v
    ensures String(StringSlice(Some(SplitEscaped(v, delimiter, escape)), delimiter, escape)) == v
  {
    MergeWithoutEscapes(Split(v, delimiter), delimiter, escape);
    JoinSplit(v, delimiter);
  }

  /** Joining a list whose head absorbed the next element is joining the longer list. */
  lemma JoinAbsorbedHead(head: string, rest: seq<string>, delimiter: string)
    requires |rest| >= 1
    ensures Join([head + delimiter + rest[0]] + rest[1..], delimiter) == head + delimiter + Join(rest, delimiter)
  {
    if |rest| > 1 {
      JoinCons(head + delimiter + rest[0], rest[1..], delimiter);
      JoinCons(rest[0], rest[1..], delimiter);
      assert rest == [rest[0]] + rest[1..];
    } else {
      assert [head + delimiter + rest[0]] + rest[1..] == [head + delimiter + rest[0]];
    }
  }

  /** The joined text of one merge step: the first piece, less its escape, then the merged tail. */
  lemma MergeJoinStep(pieces: seq<string>, delimiter: string, escape: string)
    requires |pieces| > 1
    ensures Join(MergeEscaped(pieces, delimiter, escape), delimiter)
         == (if HasSuffix(pieces[0], escape) then pieces[0][..|pieces[0]| - |escape|] else pieces[0])
            + delimiter + Join(MergeEscaped(pieces[1..], delimiter, escape), delimiter)
  {
    var rest := MergeEscaped(pieces[1..], delimiter, escape);
    if HasSuffix(pieces[0], escape) {
      JoinAbsorbedHead(pieces[0][..|pieces[0]| - |escape|], rest, delimiter);
    } else {
      JoinCons(pieces[0], rest, delimiter);
    }
  }

  /** The length form of `MergeJoinStep`: a merge at the head drops one escape string. */
  lemma MergeJoinLengthStep(pieces: seq<string>, delimiter: string, escape: string)
    requires |pieces| > 1
    ensures |Join(MergeEscaped(pieces, delimiter, escape), delimiter)|
            + (if HasSuffix(pieces[0], escape) then |escape| else 0)
         == |pieces[0]| + |delimiter| + |Join(MergeEscaped(pieces[1..], delimiter, escape), delimiter)|
  {
    MergeJoinStep(pieces, delimiter, escape);
  }

  /** The escape strings removed at the head and in the tail. */
  lemma JointsStep(pieces: seq<string>, escape: string)
    requires |pieces| > 1
    ensures EscapedJoints(pieces, escape) * |escape|
         == (if HasSuffix(pieces[0], escape) then |escape| else 0) + EscapedJoints(pieces[1..], escape) * |escape|
  {
    var n := EscapedJoints(pieces[1..], escape);
    var h := HasSuffix(pieces[0], escape);
    assert EscapedJoints(pieces, escape) == (if h then 1 else 0) + n;
    CountedLength(h, n, EscapedJoints(pieces, escape), |escape|);
  }

  lemma CountedLength(h: bool, n: nat, m: nat, c: nat)
    requires m == (if h then 1 else 0) + n
    ensures m * c == (if h then c else 0) + n * c
  {
    if h {
      assert m * c == (n + 1) * c == n * c + c;
    }
  }

  /** A piece that ends in `escape`, with that escape removed. */
  function DropEscape(piece: string, escape: string): string {
    if HasSuffix(piece, escape) then piece[..|piece| - |escape|] else piece
  }

  /** The pieces with the escape string removed from each one but the last that ends in it. */
  function DropJointEscapes(pieces: seq<string>, escape: string): (r: seq<string>)
    ensures |r| == |pieces|
    ensures forall i :: 0 <= i < |pieces| - 1 ==> r[i] == DropEscape(pieces[i], escape)
    ensures |pieces| >= 1 ==> r[|pieces| - 1] == pieces[|pieces| - 1]
  {
    if |pieces| <= 1 then pieces else [DropEscape(pieces[0], escape)] + DropJointEscapes(pieces[1..], escape)
  }

  /**
   Merging removes nothing but escapes: the joined text after the merge is the joined text of the
   pieces with the escape dropped at every escaped joint, so it is shorter by one escape string
   per merge.
   */
  lemma {:induction false} MergeRemovesOnlyEscapes(pieces: seq<string>, delimiter: string, escape: string)
    requires |pieces| >= 1
    ensures Join(MergeEscaped(pieces, delimiter, escape), delimiter) == Join(DropJointEscapes(pieces, escape), delimiter)
    ensures |Join(MergeEscaped(pieces, delimiter, escape), delimiter)| + EscapedJoints(pieces, escape) * |escape|
         == |Join(pieces, delimiter)|
    decreases |pieces|
  {
    if |pieces| > 1 {
      var tail := pieces[1..];
      MergeRemovesOnlyEscapes(tail, delimiter, escape);
      MergeJoinStep(pieces, delimiter, escape);
      JoinCons(DropEscape(pieces[0], escape), DropJointEscapes(tail, escape), delimiter);
    }
    MergeJoinLength(pieces, delimiter, escape);
  }

  /** Each merge shortens the joined text by exactly one escape string. */
  lemma {:induction false} MergeJoinLength(pieces: seq<string>, delimiter: string, escape: string)
    requires |pieces| >= 1
    ensures |Join(MergeEscaped(pieces, delimiter, escape), delimiter)| + EscapedJoints(pieces, escape) * |escape|
         == |Join(pieces, delimiter)|
    decreases |pieces|
  {
    if |pieces| > 1 {
      var tail := pieces[1..];
      MergeJoinLength(tail, delimiter, escape);
      MergeJoinLengthStep(pieces, delimiter, escape);
      JoinCons(pieces[0], tail, delimiter);
      assert pieces == [pieces[0]] + tail;
      JointsStep(pieces, escape);
    }
  }

  /** With an empty escape string every piece "ends in" it, so the whole input stays one element. */
  lemma {:induction false} MergeEmptyEscape(pieces: seq<string>, delimiter: string)
    requires |pieces| >= 1
    ensures MergeEscaped(pieces, delimiter, "") == [Join(pieces, delimiter)]
    decreases |pieces|
  {
    if |pieces| > 1 {
      MergeEmptyEscape(pieces[1..], delimiter);
      JoinCons(pieces[0], pieces[1..], delimiter);
      assert pieces == [pieces[0]] + pieces[1..];
      assert pieces[0][..|pieces[0]| - 0] == pieces[0];
    }
  }

  lemma SetEmptyEscapeKeepsWhole(v: string, delimiter: string)
    requires v != ""
    ensures SplitEscaped(v, delimiter, "") == [v]
  {
    MergeEmptyEscape(Split(v, delimiter), delimiter);
    JoinSplit(v, delimiter);
  }

  /** `",,,"` splits into four empty elements. */
  lemma SetBareDelimiters()
    ensures SplitEscaped(",,,", ",", "\\") == ["", "", "", ""]
  {
    var pieces := ["", "", "", ""];
    assert Join(pieces, ",") == ",,,";
    SplitJoinChar(pieces, ',');
    MergeWithoutEscapes(pieces, ",", "\\");
  }

  /** An escaped trailing delimiter: `",a\,"` gives `["", "a,"]`. */
  lemma SetEscapedDelimiter()
    ensures SplitEscaped(",a\\,", ",", "\\") == ["", "a,"]
  {
    var pieces := ["", "a\\", ""];
    assert Join(pieces, ",") == ",a\\,";
    SplitJoinChar(pieces, ',');
    MergeOfEscapedDelimiter(pieces);
  }

  lemma MergeOfEscapedDelimiter(pieces: seq<string>)
    requires pieces == ["", "a\\", ""]
    ensures MergeEscaped(pieces, ",", "\\") == ["", "a,"]
  {
    MergeAt(pieces, 1, ",", "\\");
    assert pieces[2..] == [""];
    assert MergeEscaped([""], ",", "\\") == [""];
    assert HasSuffix("a\\", "\\") && "a\\"[..1] == "a";
    assert "a" + "," + "" == "a,";
    assert MergeEscaped(pieces[1..], ",", "\\") == ["a,"];
    MergeAt(pieces, 0, ",", "\\");
    assert pieces[0..] == pieces;
  }

  /** An escape not followed by the delimiter stays verbatim: `a,b\,c\\d,e` gives `["a", "b,c\\d", "e"]`. */
  lemma SetKeepsOtherEscapes()
    ensures SplitEscaped("a,b\\,c\\\\d,e", ",", "\\") == ["a", "b,c\\\\d", "e"]
  {
    var pieces := ["a", "b\\", "c\\\\d", "e"];
    assert Join(pieces, ",") == "a,b\\,c\\\\d,e";
    SplitJoinChar(pieces, ',');
    MergeOfOtherEscapes(pieces);
  }

  lemma MergeOfOtherEscapes(pieces: seq<string>)
    requires pieces == ["a", "b\\", "c\\\\d", "e"]
    ensures MergeEscaped(pieces, ",", "\\") == ["a", "b,c\\\\d", "e"]
  {
    MergeAt(pieces, 2, ",", "\\");
    assert pieces[3..] == ["e"];
    assert !HasSuffix("c\\\\d", "\\") by {
      assert "c\\\\d"[3..] == "d";
    }
    var m2 := MergeEscaped(pieces[2..], ",", "\\");
    assert m2 == ["c\\\\d", "e"];
    MergeAt(pieces, 1, ",", "\\");
    assert HasSuffix("b\\", "\\") && "b\\"[..1] == "b";
    assert pieces[1] == "b\\" && m2[0] == "c\\\\d" && m2[1..] == ["e"];
    assert "b" + "," + "c\\\\d" == "b,c\\\\d";
    var m1 := MergeEscaped(pieces[1..], ",", "\\");
    assert m1 == ["b,c\\\\d", "e"];
    MergeAt(pieces, 0, ",", "\\");
    assert !HasSuffix("a", "\\");
    assert pieces[0..] == pieces;
  }

  /**
   `Set` inverts `String` for a one-character delimiter when no element contains the
   delimiter, no element but the last ends in the escape string, and the joined text is
   non-empty.
   */
  lemma SetAfterString(xs: seq<string>, c: char, escape: string)
    requires |xs| >= 1 && Join(xs, [c]) != ""
    requires forall k :: 0 <= k < |xs| ==> c !in xs[k]
    requires forall k :: 0 <= k < |xs| - 1 ==> !HasSuffix(xs[k], escape)
    ensures SplitEscaped(String(StringSlice(Some(xs), [c], escape)), [c], escape) == xs
  {
    SplitJoinChar(xs, c);
    MergeWithoutEscapes(xs, [c], escape);
  }

  /**
   A list holding only the empty string does not survive the round trip: `String` renders it as
   `""`, and `Set("")` stores the empty list.
   */
  lemma SetAfterStringLosesEmptyElement(c: char, escape: string)
    ensures String(StringSlice(Some([""]), [c], escape)) == ""
    ensures SplitEscaped(String(StringSlice(Some([""]), [c], escape)), [c], escape) == []
  {
  }

  /** `String` does not re-escape: `["a,b", "c"]` renders as `"a,b,c"`. */
  lemma StringDoesNotEscape()
    ensures String(StringSlice(Some(["a,b", "c"]), ",", "\\")) == "a,b,c"
  {
  }

  /** `Create` then `Get` gives back the value; `ToString` is the quoted `String` of that value. */
  lemma CreateThenRender(v: seq<string>, c: Config)
    ensures Get(Create(v, c)) == v
    ensures ToString(Create(v, c), v) == (if v == [] then "" else Quote(String(Create(v, c))))
  {
  }
}

=== FILE: tag.dfy ===
/**
 Deriving container image tags from a git ref: prefix stripping, the "should this ref be tagged"
 predicate, and the list of tags suggested for a semantic version (Semantic Versioning 2.0.0).
 The semver parser is a parameter of the model.
 */
module Tag {
  import opened Results
  import opened GoStrings

  const TagRefPrefix := "refs/tags/"
  const HeadRefPrefix := "refs/heads/"
  /** The tag used for anything that is not a release. */
  const Latest := "latest"

  /** `stripHeadPrefix`: removes one leading `refs/heads/`. */
  function StripHeadPrefix(ref: string): (r: string)
    ensures HasPrefix(ref, HeadRefPrefix) ==> HeadRefPrefix + r == ref
    ensures !HasPrefix(ref, HeadRefPrefix) ==> r == ref
  {
    TrimPrefix(ref, HeadRefPrefix)
  }

  /** `stripTagPrefix`: removes one leading `refs/tags/`, then at most one leading `v`. */
  function StripTagPrefix(ref: string): (r: string)
    ensures HasPrefix(ref, TagRefPrefix + "v") ==> TagRefPrefix + "v" + r == ref
    ensures HasPrefix(ref, TagRefPrefix) && !HasPrefix(ref, TagRefPrefix + "v") ==> TagRefPrefix + r == ref
    ensures !HasPrefix(ref, TagRefPrefix) && HasPrefix(ref, "v") ==> "v" + r == ref
    ensures !HasPrefix(ref, TagRefPrefix) && !HasPrefix(ref, "v") ==> r == ref
  {
    if HasPrefix(ref, TagRefPrefix) then
      PrefixThenPrefix(ref, TagRefPrefix, "v");
      TrimPrefix(ref[|TagRefPrefix|..], "v")
    else
      TrimPrefix(ref, "v")
  }

  lemma StripTagPrefixExamples()
    ensures StripTagPrefix("refs/tags/1.0.0") == "1.0.0"
    ensures StripTagPrefix("refs/tags/v1.0.0") == "1.0.0"
    ensures StripTagPrefix("v1.0.0") == "1.0.0"
    ensures StripTagPrefix("refs/tags/vv1") == "v1"
  {
    StripTagPrefixCase("refs/tags/1.0.0", "1.0.0");
    StripTagPrefixCase("refs/tags/v1.0.0", "1.0.0");
    StripTagPrefixCase("refs/tags/vv1", "v1");
    assert !HasPrefix("v1.0.0", TagRefPrefix);
    assert "v1.0.0" == "v" + "1.0.0";
  }

  /** `IsTaggable`: tag refs, and the default branch (with or without `refs/heads/`). */
  predicate IsTaggable(ref: string, defaultBranch: string) {
    if HasPrefix(ref, TagRefPrefix) then true
    else StripHeadPrefix(ref) == defaultBranch
  }

  /** The refs that are taggable, listed without reference to prefix stripping. */
  lemma IsTaggableIff(ref: string, defaultBranch: string)
    ensures IsTaggable(ref, defaultBranch) <==>
      HasPrefix(ref, TagRefPrefix)
      || ref == HeadRefPrefix + defaultBranch
      || (ref == defaultBranch && !HasPrefix(ref, HeadRefPrefix))
  {
    if ref == HeadRefPrefix + defaultBranch {
      assert HasPrefix(ref, HeadRefPrefix);
    }
  }

  lemma IsTaggableExamples()
    ensures IsTaggable("refs/heads/main", "main")
    ensures IsTaggable("refs/tags/v1.0.0", "main")
    ensures !IsTaggable("refs/heads/develop", "main")
    ensures IsTaggable("main", "main")
  {
    assert HasPrefix("refs/heads/main", HeadRefPrefix);
    assert HasPrefix("refs/tags/v1.0.0", TagRefPrefix);
    assert HasPrefix("refs/heads/develop", HeadRefPrefix);
    assert !HasPrefix("refs/heads/develop", TagRefPrefix) by {
      assert "refs/heads/develop"[5] != TagRefPrefix[5];
    }
    assert !HasPrefix("main", TagRefPrefix);
    assert !HasPrefix("main", HeadRefPrefix);
  }

  /** A parsed semantic version, as the semver library reports it. */
  datatype Version = Version(major: nat, minor: nat, patch: nat, prerelease: string, metadata: string)

  /**
   The semver parser: the raw version text and the strict flag give a version or an error message.
   */
  type Parser = (string, bool) -> Result<Version, string>

  /** `M.m.p` */
  function Triple(v: Version): string {
    NatToString(v.major) + "." + NatToString(v.minor) + "." + NatToString(v.patch)
  }

  /** The version's canonical text: `M.m.p`, then `-prerelease` and `+metadata` when present. */
  function Canonical(v: Version): (r: string)
    ensures HasPrefix(r, Triple(v))
  {
    Triple(v)
      + (if v.prerelease != "" then "-" + v.prerelease else "")
      + (if v.metadata != "" then "+" + v.metadata else "")
  }

  /** The result of `SemverTags`: a tag list and an optional error. */
  datatype TagList = TagList(tags: seq<string>, err: Option<string>)

  /** A tag built only of digits and dots. */
  predicate IsVersionText(t: string) {
    forall i :: 0 <= i < |t| ==> IsDigit(t[i]) || t[i] == '.'
  }

  /** The tags of a release version: `M`, `M.m`, `M.m.p`, with `M` left out when it is 0. */
  function ReleaseTags(v: Version): (r: seq<string>)
    ensures |r| == if v.major == 0 then 2 else 3
    ensures r[|r| - 1] == Triple(v)
    ensures r[0] == if v.major == 0 then "0." + NatToString(v.minor) else NatToString(v.major)
    ensures forall i :: 0 < i < |r| ==>
      HasPrefix(r[i], r[i - 1] + ".") && IsNumeral(r[i][|r[i - 1]| + 1..])
    ensures forall i :: 0 <= i < |r| ==> IsVersionText(r[i]) && r[i] != Latest
  {
    var major := NatToString(v.major);
    var minor := major + "." + NatToString(v.minor);
    var patch := minor + "." + NatToString(v.patch);
    assert minor[|major| + 1..] == NatToString(v.minor);
    assert patch[|minor| + 1..] == NatToString(v.patch);
    assert IsVersionText(major) && IsVersionText(minor) && IsVersionText(patch);
    assert Latest[0] !in "0123456789.";
    if v.major == 0 then
      assert major == "0";
      [minor, patch]
    else
      [major, minor, patch]
  }

  /** `SemverTags`: the suggested tags for a ref, with `strict` selecting the strict parser. */
  function SemverTags(ref: string, strict: bool, parse: Parser): (r: TagList)
    ensures !HasPrefix(ref, TagRefPrefix) ==> r == TagList([Latest], None)
    ensures HasPrefix(ref, TagRefPrefix) && parse(StripTagPrefix(ref), strict).Err? ==>
      r == TagList([Latest], Some(parse(StripTagPrefix(ref), strict).error))
    ensures HasPrefix(ref, TagRefPrefix) && parse(StripTagPrefix(ref), strict).Ok? ==>
      r.err.None? && 1 <= |r.tags| <= 3 && Latest !in r.tags
  {
    if !HasPrefix(ref, TagRefPrefix) then TagList([Latest], None)
    else
      match parse(StripTagPrefix(ref), strict)
      case Err(e) => TagList([Latest], Some(e))
      case Ok(v) =>
        if v.prerelease != "" then
          assert Canonical(v)[0] != Latest[0];
          TagList([Canonical(v)], None)
        else
          TagList(ReleaseTags(v), None)
  }

  /** The three shapes of a successful tag list. */
  lemma SemverTagsOfVersion(ref: string, strict: bool, parse: Parser, v: Version)
    requires HasPrefix(ref, TagRefPrefix)
    requires parse(StripTagPrefix(ref), strict) == Ok(v)
    ensures v.prerelease != "" ==> SemverTags(ref, strict, parse).tags == [Canonical(v)]
    ensures v.prerelease == "" && v.major == 0 ==>
      SemverTags(ref, strict, parse).tags ==
        ["0." + NatToString(v.minor), "0." + NatToString(v.minor) + "." + NatToString(v.patch)]
    ensures v.prerelease == "" && v.major > 0 ==>
      SemverTags(ref, strict, parse).tags ==
        [NatToString(v.major), NatToString(v.major) + "." + NatToString(v.minor), Triple(v)]
  {
    if v.prerelease == "" && v.major == 0 {
      var r := ReleaseTags(v);
      assert NatToString(0) == "0";
      assert r[1] == Triple(v);
      assert r[1] == "0." + NatToString(v.minor) + "." + NatToString(v.patch);
    }
  }

  /** Every tag of `tags` gets the suffix; `latest` becomes the suffix itself. */
  function ApplySuffix(tags: seq<string>, suffix: string): (r: seq<string>)
    ensures |r| == |tags|
    ensures forall i :: 0 <= i < |tags| ==>
      r[i] == if tags[i] == Latest then suffix else tags[i] + "-" + suffix
  {
    if |tags| == 0 then []
    else
      var t := if tags[0] == Latest then suffix else tags[0] + "-" + suffix;
      [t] + ApplySuffix(tags[1..], suffix)
  }

  /** `SemverTagSuffix`: the suggested tags with `suffix` attached, or the parser's error. */
  function SemverTagSuffix(ref: string, suffix: string, strict: bool, parse: Parser): (r: Result<seq<string>, string>)
    ensures SemverTags(ref, strict, parse).err.Some? ==> r == Err(SemverTags(ref, strict, parse).err.value)
    ensures SemverTags(ref, strict, parse).err.None? ==>
      r.Ok? && |r.value| == |SemverTags(ref, strict, parse).tags|
    ensures SemverTags(ref, strict, parse).err.None? && suffix == "" ==>
      r == Ok(SemverTags(ref, strict, parse).tags)
    ensures SemverTags(ref, strict, parse).err.None? && suffix != "" ==>
      forall i :: 0 <= i < |r.value| ==>
        var t := SemverTags(ref, strict, parse).tags[i];
        r.value[i] == if t == Latest then suffix else t + "-" + suffix
  {
    var list := SemverTags(ref, strict, parse);
    if list.err.Some? then Err(list.err.value)
    else if |suffix| == 0 then Ok(list.tags)
    else Ok(ApplySuffix(list.tags, suffix))
  }

  /** A ref that is not a tag gets the suffix alone. */
  lemma SemverTagSuffixNotATag(ref: string, suffix: string, strict: bool, parse: Parser)
    requires !HasPrefix(ref, TagRefPrefix) && suffix != ""
    ensures SemverTagSuffix(ref, suffix, strict, parse) == Ok([suffix])
  {
    var r := SemverTagSuffix(ref, suffix, strict, parse);
    assert SemverTags(ref, strict, parse).tags[0] == Latest;
    assert |r.value| == 1 && r.value[0] == suffix;
    assert r.value == [suffix];
  }

  // The examples below take their input as a parameter pinned by a `requires` rather than as a
  // literal in the call: a literal argument makes the verifier unfold the string functions on it
  // eagerly, which costs far more than the proof needs. Small lemmas of literal concatenations
  // supply the text those proofs assemble.

  /** The numerals of the small version numbers in the examples. */
  lemma SmallNumerals()
    ensures NatToString(0) == "0" && NatToString(1) == "1" && NatToString(2) == "2" && NatToString(9) == "9"
  {
  }

  /** `refs/tags/0.9.0` gives `0.9` and `0.9.0`. */
  lemma SemverTagsMajorZeroExample(ref: string, parse: Parser)
    requires ref == "refs/tags/0.9.0"
    requires parse("0.9.0", true) == Ok(Version(0, 9, 0, "", ""))
    ensures SemverTags(ref, true, parse) == TagList(["0.9", "0.9.0"], None)
  {
    assert ref == TagRefPrefix + "0.9.0";
    StripTagPrefixCase(ref, "0.9.0");
    SemverTagsOfVersion(ref, true, parse, Version(0, 9, 0, "", ""));
    SmallNumerals();
    assert "0." + "9" == "0.9";
    assert "0." + "9" + "." + "0" == "0.9.0";
  }

  /** `refs/tags/v1.0.0+1` gives `1`, `1.0` and `1.0.0`: build metadata does not appear. */
  lemma SemverTagsMetadataExample(ref: string, parse: Parser)
    requires ref == "refs/tags/v1.0.0+1"
    requires parse("1.0.0+1", true) == Ok(Version(1, 0, 0, "", "1"))
    ensures SemverTags(ref, true, parse) == TagList(["1", "1.0", "1.0.0"], None)
  {
    assert ref == TagRefPrefix + "v" + "1.0.0+1";
    StripTagPrefixCase(ref, "1.0.0+1");
    SemverTagsOfVersion(ref, true, parse, Version(1, 0, 0, "", "1"));
    SmallNumerals();
    assert "1" + "." + "0" == "1.0";
    assert "1" + "." + "0" + "." + "0" == "1.0.0";
  }

  /** `refs/tags/v1.0.0-alpha.1` gives the single tag `1.0.0-alpha.1`. */
  lemma SemverTagsPrereleaseExample(ref: string, parse: Parser)
    requires ref == "refs/tags/v1.0.0-alpha.1"
    requires parse("1.0.0-alpha.1", true) == Ok(Version(1, 0, 0, "alpha.1", ""))
    ensures SemverTags(ref, true, parse) == TagList(["1.0.0-alpha.1"], None)
  {
    var v := Version(1, 0, 0, "alpha.1", "");
    assert ref == TagRefPrefix + "v" + "1.0.0-alpha.1";
    StripTagPrefixCase(ref, "1.0.0-alpha.1");
    SemverTagsOfVersion(ref, true, parse, v);
    CanonicalOfPrerelease(v);
  }

  lemma CanonicalOfPrerelease(v: Version)
    requires v == Version(1, 0, 0, "alpha.1", "")
    ensures Canonical(v) == "1.0.0-alpha.1"
  {
    SmallNumerals();
    assert Triple(v) == "1" + "." + "0" + "." + "0" == "1.0.0";
    assert Canonical(v) == "1.0.0" + "-alpha.1" + "" == "1.0.0-alpha.1";
  }

  /** `refs/tags/v1.9.2` gives `1`, `1.9` and `1.9.2`. */
  lemma SemverTagsReleaseExample(ref: string, parse: Parser)
    requires ref == "refs/tags/v1.9.2"
    requires parse("1.9.2", true) == Ok(Version(1, 9, 2, "", ""))
    ensures SemverTags(ref, true, parse) == TagList(["1", "1.9", "1.9.2"], None)
  {
    assert ref == TagRefPrefix + "v" + "1.9.2";
    StripTagPrefixCase(ref, "1.9.2");
    SemverTagsOfVersion(ref, true, parse, Version(1, 9, 2, "", ""));
    SmallNumerals();
    assert "1" + "." + "9" == "1.9";
    assert "1" + "." + "9" + "." + "2" == "1.9.2";
  }

  /** The same version with suffix `nanoserver`. */
  lemma SemverTagSuffixExample(ref: string, parse: Parser)
    requires ref == "refs/tags/v1.9.2"
    requires parse("1.9.2", true) == Ok(Version(1, 9, 2, "", ""))
    ensures SemverTagSuffix(ref, "nanoserver", true, parse) ==
      Ok(["1-nanoserver", "1.9-nanoserver", "1.9.2-nanoserver"])
  {
    SemverTagsReleaseExample(ref, parse);
    var r := SemverTagSuffix(ref, "nanoserver", true, parse);
    NanoserverTexts();
    assert r.value[0] == "1-nanoserver";
    assert r.value[1] == "1.9-nanoserver";
    assert r.value[2] == "1.9.2-nanoserver";
    assert r.value == ["1-nanoserver", "1.9-nanoserver", "1.9.2-nanoserver"];
  }

  /** The suffixed tags of `SemverTagSuffixExample`, assembled. */
  lemma NanoserverTexts()
    ensures "1" + "-" + "nanoserver" == "1-nanoserver"
    ensures "1.9" + "-" + "nanoserver" == "1.9-nanoserver"
    ensures "1.9.2" + "-" + "nanoserver" == "1.9.2-nanoserver"
  {
  }

  /** A tag ref whose version text starts with a digit. */
  lemma StripTagPrefixCase(ref: string, raw: string)
    requires ref == TagRefPrefix + "v" + raw || (ref == TagRefPrefix + raw && |raw| > 0 && IsDigit(raw[0]))
    ensures HasPrefix(ref, TagRefPrefix) && StripTagPrefix(ref) == raw
  {
    assert HasPrefix(ref, TagRefPrefix);
    var rest := TrimPrefix(ref, TagRefPrefix);
    assert rest == ref[|TagRefPrefix|..];
    if ref == TagRefPrefix + "v" + raw {
      assert rest == "v" + raw;
      assert HasPrefix(rest, "v");
      assert rest[1..] == raw;
    } else {
      assert rest == raw;
      assert !HasPrefix(rest, "v") by {
        assert rest[0] != 'v';
      }
    }
  }
}

=== FILE: template.dfy ===
/**
 String helpers of the template package: prefix insertion and sentence normalisation. Upper-casing
 is Unicode case mapping in the source; here it is a parameter `toUpper`.
 */
module Template {
  import opened GoStrings

  /** `AddPrefix`: prepends `prefix` unless the input is blank or already starts with it. */
  function AddPrefix(prefix: string, input: string): (r: string)
    ensures IsBlank(input) ==> r == input
    ensures HasPrefix(input, prefix) ==> r == input
    ensures !IsBlank(input) && !HasPrefix(input, prefix) ==> r == prefix + input
  {
    TrimSpaceEmpty(input);
    if TrimSpace(input) == "" then input
    else if HasPrefix(input, prefix) then input
    else prefix + input
  }

  /** The result of a non-blank input starts with the prefix. */
  lemma AddPrefixStartsWithPrefix(prefix: string, input: string)
    requires !IsBlank(input)
    ensures HasPrefix(AddPrefix(prefix, input), prefix)
  {
    if !HasPrefix(input, prefix) {
      assert (prefix + input)[..|prefix|] == prefix;
    }
  }

  /** Adding the prefix twice is adding it once. */
  lemma AddPrefixIdempotent(prefix: string, input: string)
    ensures AddPrefix(prefix, AddPrefix(prefix, input)) == AddPrefix(prefix, input)
  {
    if !IsBlank(input) {
      AddPrefixStartsWithPrefix(prefix, input);
      var r := AddPrefix(prefix, input);
      var i :| 0 <= i < |input| && !IsSpace(input[i]);
      if r != input {
        assert r[|prefix| + i] == input[i];
      }
      assert !IsBlank(r);
    }
  }

  lemma AddPrefixEmptyExample()
    ensures AddPrefix("pre", "") == ""
  {
  }

  // Examples pin their input with a `requires` instead of passing a literal, so that the
  // verifier does not unfold the string functions on the literal eagerly.

  /** An input that already carries the prefix is returned unchanged. */
  lemma AddPrefixPresentExample(input: string)
    requires input == "pre-existing"
    ensures AddPrefix("pre", input) == "pre-existing"
  {
    assert input[..3] == "pre";
  }

  lemma AddPrefixAbsentExample(input: string)
    requires input == "-existing"
    ensures AddPrefix("pre", input) == "pre-existing"
  {
    assert !IsSpace(input[0]);
    assert !HasPrefix(input, "pre") by {
      assert input[0] != "pre"[0];
    }
  }

  /** The prefix check does not look past leading white space. */
  lemma AddPrefixUntrimmedExample(input: string)
    requires input == " pre-x"
    ensures AddPrefix("pre", input) == "pre pre-x"
  {
    assert !IsBlank(input) by {
      assert !IsSpace(input[1]);
    }
    assert !HasPrefix(input, "pre") by {
      assert input[0] != "pre"[0];
    }
    assert "pre" + " pre-x" == "pre pre-x";
  }

  /** `getLastRune(s, c)`: the last `c` characters of `s`, or all of `s` when it is shorter. */
  function LastRunes(s: string, c: int): (r: string)
    ensures HasSuffix(s, r)
    ensures |r| == if c <= 0 then 0 else if c < |s| then c else |s|
    decreases |s|
  {
    if c <= 0 || |s| == 0 then ""
    else LastRunes(s[..|s| - 1], c - 1) + [s[|s| - 1]]
  }

  /** The source's loop: step back from the end one character at a time, at most `c` times. */
  method GetLastRune(s: string, c: int) returns (r: string)
    ensures r == LastRunes(s, c)
  {
    var j := |s|;
    var i := 0;
    while i < c && j > 0
      invariant 0 <= j <= |s|
      invariant j == |s| - i
      invariant i == 0 || i <= c
      decreases j
    {
      j := j - 1;
      i := i + 1;
    }
    r := s[j..];
    var expected := LastRunes(s, c);
    assert |expected| == |s| - j;
    assert expected == s[|s| - |expected|..];
  }

  /** `ToSentence`: upper-cases the first character and appends a period unless there is one. */
  function ToSentence(s: string, toUpper: char -> char): (r: string)
    ensures s == "" ==> r == ""
    ensures s != "" ==> |r| == |s| + (if s[|s| - 1] == '.' then 0 else 1)
    ensures s != "" ==> r[0] == toUpper(s[0]) && r[1..|s|] == s[1..]
    ensures s != "" && s[|s| - 1] != '.' ==> r[|s|] == '.'
  {
    if s == "" then ""
    else
      var closer := if LastRunes(s, 1) != "." then "." else "";
      assert LastRunes(s, 1) == [s[|s| - 1]];
      [toUpper(s[0])] + s[1..] + closer
  }

  /** A non-empty sentence ends in a period, given that upper-casing keeps `.` as it is. */
  lemma ToSentenceEndsInPeriod(s: string, toUpper: char -> char)
    requires s != "" && toUpper('.') == '.'
    ensures var r := ToSentence(s, toUpper); r[|r| - 1] == '.'
  {
    var r := ToSentence(s, toUpper);
    if s[|s| - 1] == '.' && |s| > 1 {
      assert r[|s| - 1] == r[1..|s|][|s| - 2] == s[|s| - 1];
    }
  }

  /** With an idempotent `toUpper` that keeps `.`, normalising a sentence twice changes nothing. */
  lemma ToSentenceIdempotent(s: string, toUpper: char -> char)
    requires forall c :: toUpper(toUpper(c)) == toUpper(c)
    requires toUpper('.') == '.'
    ensures ToSentence(ToSentence(s, toUpper), toUpper) == ToSentence(s, toUpper)
  {
    if s != "" {
      var r := ToSentence(s, toUpper);
      ToSentenceEndsInPeriod(s, toUpper);
      var rr := ToSentence(r, toUpper);
      assert |rr| == |r|;
      assert rr[0] == r[0];
      assert rr[1..|r|] == r[1..];
      assert rr == [rr[0]] + rr[1..|r|];
      assert r == [r[0]] + r[1..];
    }
  }

  /** Upper-casing that turns `.` into `X`: the period case the idempotence lemma excludes. */
  function DotToX(c: char): char {
    if c == '.' then 'X' else c
  }

  /** Without `toUpper('.') == '.'` idempotence fails: `"."` becomes `"X"`, then `"X."`. */
  lemma ToSentenceNeedsDotFixed()
    ensures ToSentence(".", DotToX) == "X"
    ensures ToSentence(ToSentence(".", DotToX), DotToX) == "X."
  {
    assert ToSentence("X", DotToX) == "X.";
  }

  /** Upper-casing of the ASCII letters, for the examples below. */
  function AsciiUpper(c: char): char {
    if 'a' <= c <= 'z' then (c as int - 32) as char else c
  }

  lemma ToSentenceEmptyExample()
    ensures ToSentence("", AsciiUpper) == ""
  {
  }

  lemma ToSentenceWordExample()
    ensures ToSentence("word", AsciiUpper) == "Word."
  {
    var r := ToSentence("word", AsciiUpper);
    assert |r| == 5;
    assert r[0] == 'W';
    assert r[1..4] == "word"[1..] == "ord";
    assert r[4] == '.';
    assert r == [r[0]] + r[1..4] + [r[4]];
  }

  lemma ToSentenceSentenceExample()
    ensures ToSentence("this is a sentence.", AsciiUpper) == "This is a sentence."
  {
    var s := "this is a sentence.";
    var t := ToSentence(s, AsciiUpper);
    assert |t| == 19;
    assert t[0] == 'T';
    assert t[1..19] == s[1..] == "his is a sentence.";
    assert t == [t[0]] + t[1..19];
  }
}
